=== FILE: README.md ===
# ngx-s-data-table: a Dafny model of the table engine

This project models the logic behind the `lib-data-table` Angular component. The component gets three inputs:

- a record class (`dataClazz`);
- an array of records (`dataSource`);
- a list of explicit column mappings (`PropertyMapping`).

When it starts (`ngOnInit`) it does the following:

- validates the inputs;
- adds one implicit column for each remaining property of a fresh instance of the class (`mapClass`);
- picks the primary-key and expandable-content columns;
- shows the first page.

After that, the component filters the records against a free-text filter (`filterData`) and moves a page cursor (`nextPage`, `previousPage`, `updatePaginatedItens`). A cell's text is found by a depth-first search of the record for the mapped property (`findPropertyValue`). That text is then formatted (`obtainProperValue`). Whether a property exists is answered by `checkIfHas` and `checkIfHasAndIsntFunction`.

JavaScript values are modelled as finite trees (`JsValues.Value`):

- an object lists its fields in `for…in` order and marks which fields are enumerable;
- an object also lists the class names on its prototype chain, which is what `instanceof` tests.

A JavaScript expression that would throw a TypeError gives `Throws` in the model. The TypeErrors covered are `name in null`, `null[name]` and `undefined[name]`. Every operation therefore returns `Eval<…>` where the source can throw, rather than requiring that it cannot. The component's fields are the immutable datatype `DataTable.Table`. Each operation returns the updated component.

Modules:

| module | file | models |
|---|---|---|
| `JsValues` | js_values.dfy | the JavaScript value model: `typeof`, `in`, `[]`, `for…in`, `String(…)`, `Array.prototype.join`, `includes`, lower-casing |
| `PropertyMappings` | property_mapping.dfy | `PropertyMapping` and its fluent setters |
| `ValidationResults` | validation_result.dfy | `ValidationResult`; the error messages become the kind plus the property names spliced into them |
| `Seqs` | seqs.dfy | sets of elements, distinctness, subsequences |
| `ObjectSearch` | object_search.dfy | `checkIfHas`, `checkIfHasAndIsntFunction` |
| `Display` | display.dfy | `obtainProperValue`, `findPropertyValue` |
| `Validate` | validate.dfy | the `Validate` class's validators; the component carries copies of them |
| `Columns` | columns.dfy | `mapClass` |
| `Filtering` | filtering.dfy | the record filter inside `filterData` |
| `Paging` | paging.dfy | `slice`, `Math.ceil(n / pageSize)`, the page window |
| `DataTable` | table.dfy | the component's state, `ngOnInit`, `filterData`, the page cursor |

Where the component's behaviour and its own description differ, the model follows the code:

- `ngOnInit` never calls `checkExpansionAndClickOptions`. That check is modelled on its own.
- A list of objects is displayed joined by `","`. There is no space.
- The page count is not floored at 1: an empty data source has 0 pages.
- `filterData` recomputes neither the shown page, the page count nor the cursor.
- `validatePropertyMappings` does not stop at the first bad mapping. It reports the last one.
- The data check uses `find(…) != undefined`, so it misses a bad record when the first offender is itself `null` or `undefined`. For example, `[undefined, 5]` is accepted.
- The key and expandable names are picked from the column list before the ignored columns are dropped. An ignored column can therefore still be the key or the expandable content.
- A duplicate-key failure happens after the column list has been stored. It is the one init error that leaves the component changed: `mapping` holds explicit plus implicit columns, ignored ones included.

## Model

| member | source | states |
|---|---|---|
| `PropertyMappings.NewMapping` | src/lib/classes/property-mapping.class.ts:11-18 | a new mapping's column is named after its property; it takes the given ignored flag (false by default); it is neither key nor expandable; its composition property is empty |
| `PropertyMappings.SettersKeepPropertyName` | src/lib/classes/property-mapping.class.ts:4-43 | no chain of setters changes the property name, which is read-only |
| `PropertyMappings.SettersIdempotent` | src/lib/classes/property-mapping.class.ts:20-43 | setting a field twice to the same value is setting it once |
| `PropertyMappings.SettersCommute` | src/lib/classes/property-mapping.class.ts:20-43 | setters of different fields can be applied in either order |
| `ValidationResults.NewResult` | src/lib/classes/validation-result.class.ts:1-9 | a result carries the given error flag and message; the defaults are no error and an empty message |
| `ObjectSearch.CheckIfHas` | src/lib/classes/validate.class.ts:31-41 | true only when the name is a property of the value or of an object reachable through `for…in`-visited, object-typed slots; false only when it is none of these; never throws when no searched slot is null; throws on null |
| `ObjectSearch.CheckIfHasAndIsntFunction` | src/lib/classes/validate.class.ts:43-53 | true exactly when the name is a top-level property whose value is not a function, or is found anywhere below, where functions count; never throws when no searched slot is null |
| `Display.ObtainProperValue` | src/lib/component/data-table.component.ts:114-125 | throws exactly for null, and for an array led by an object that holds some null or undefined element; otherwise an array led by an object gives its elements' composition sub-values joined by ","; an empty array or one led by a non-object gives its `toString`, the empty array giving ""; an object gives its composition sub-value as a string; any other value gives its string |
| `Display.FindPropertyValue` | src/lib/component/data-table.component.ts:151-164 | throws on null or undefined; finds nothing exactly when no node reachable through non-null object slots holds the property with a defined value; a defined top-level value wins and is formatted; otherwise the result is that of the first child, in iteration order, whose search finds something; anything found is the formatted value of such a node |
| `Display.FindAmongChildren` | src/lib/component/data-table.component.ts:155-163 | the loop returns the first child, in iteration order, whose search finds something, and every earlier entered child found nothing; it throws exactly when the first entered child whose search does not find nothing throws; it finds nothing exactly when no entered child holds the property |
| `Validate.Instantiate` | src/lib/component/data-table.component.ts:75 | `new Clazz()` is an object that is an instance of the class |
| `Validate.ValidateClazz` | src/lib/classes/validate.class.ts:56-57 | an error, with the "no class" message, exactly when no class is given |
| `Validate.CheckInstance` | src/lib/classes/validate.class.ts:86-90 | a record passes the instance check only when the class check passes, and a fresh instance of the class always passes it |
| `Validate.FindFirst` | src/lib/classes/validate.class.ts:78-80 | `find` returns the first element satisfying the predicate, or undefined when none does |
| `Validate.FindFirstDefined` | src/lib/classes/validate.class.ts:78-80 | `find(p) != undefined` holds exactly when the first element satisfying `p` exists and is neither null nor undefined |
| `Validate.ValidateDataProvided` | src/lib/classes/validate.class.ts:76-83 | "not an object" is reported exactly when the first non-object record is defined; "not an instance" exactly when that check passes and the first non-instance is defined; otherwise success |
| `Validate.DataProvidedWithoutNullish` | src/lib/classes/validate.class.ts:76-90 | with no null or undefined record, the data is accepted exactly when every record is an object and an instance of the class, and no record passes without a class |
| `Validate.FirstMatchWithoutNullish` | src/lib/classes/validate.class.ts:78-80 | with no null or undefined record, the `find` test succeeds exactly when some record satisfies the predicate |
| `Validate.FindFirstIsMatch` | src/lib/classes/validate.class.ts:78-80 | when some element satisfies the predicate, `find` returns one that does |
| `Validate.NullishRecordPassesValidation` | src/lib/classes/validate.class.ts:78-81 | the data `[undefined, 5]` passes the data check for any class |
| `Validate.ValidateUniquenessOfKeyProperty` | src/lib/classes/validate.class.ts:61-72 | without a key property, success; with one, it throws exactly when some record is null or undefined; otherwise it fails with "multiple elements with same key" exactly when two records share the key's value |
| `Validate.FoldKeyInv` | src/lib/classes/validate.class.ts:99-114 | after any prefix of the loop, the recorded key holder is an accepted key mapping of that prefix, and there is none exactly when the prefix has no accepted key mapping |
| `Validate.KeyDuplicateIffHeld` | src/lib/classes/validate.class.ts:108-111 | an accepted key mapping is a second key exactly when a holder was already recorded |
| `Validate.FoldExpandInv` | src/lib/classes/validate.class.ts:100-122 | after any prefix, the recorded expandable holder is a flagged mapping of that prefix that passed both earlier rules, and there is none exactly when the prefix has no such mapping |
| `Validate.FoldKeyIsFirst` | src/lib/classes/validate.class.ts:108-114 | the recorded key holder is the first accepted mapping flagged as primary key |
| `Validate.FoldExpandIsFirst` | src/lib/classes/validate.class.ts:116-122 | the recorded expandable holder is the first mapping to reach the expand rule flagged |
| `Validate.DuplicateKeyNamesHolder` | src/lib/classes/validate.class.ts:108-111 | a reported second key names two properties: the offender, then the first accepted key mapping |
| `Validate.DuplicateExpandNamesHolder` | src/lib/classes/validate.class.ts:116-119 | a reported second expandable mapping names two properties: the offender, then the first mapping that held the expandable flag |
| `Validate.FoldVerdict` | src/lib/classes/validate.class.ts:98-125 | the loop's result is success exactly when no mapping offends, and otherwise the last offender's message naming it first |
| `Validate.ExpandDuplicateIffHeld` | src/lib/classes/validate.class.ts:116-119 | such a mapping is a second expandable one exactly when a holder was already recorded |
| `Validate.StepKeepsHolders` | src/lib/classes/validate.class.ts:101-123 | one iteration only ever overwrites the result with an error; it records a key or expandable holder only when none was recorded and the mapping passed and carries the flag; a mapping whose property is missing records nothing |
| `Validate.Fold` | src/lib/classes/validate.class.ts:101-123 | after any prefix of the loop, a recorded key holder is a key mapping of that prefix and a recorded expandable holder is an expandable mapping of it |
| `Validate.ResultAfterOffence` | src/lib/classes/validate.class.ts:102-119 | an offending mapping overwrites the result with its own message |
| `Validate.ResultAfterClean` | src/lib/classes/validate.class.ts:101-123 | a clean mapping leaves the result alone |
| `Validate.ExpectedStable` | src/lib/classes/validate.class.ts:108-119 | later steps do not change the message an earlier offender would get |
| `Validate.ResultInvAfterOffence` | src/lib/classes/validate.class.ts:102-119 | once an offending mapping is folded in, the result is that mapping's message, so the invariant holds one step on |
| `Validate.ResultInvAfterClean` | src/lib/classes/validate.class.ts:101-123 | once a clean mapping is folded in, the invariant still holds one step on: success stays success, and the last offender's message stays in place |
| `Validate.FoldResultInv` | src/lib/classes/validate.class.ts:98-123 | after any prefix, the result is success when no mapping offended, and otherwise the message of the last offender |
| `Validate.ScanPrefix` | src/lib/classes/validate.class.ts:101-123 | the loop over a prefix throws exactly when some property search in it throws; otherwise it computes the reference fold |
| `Validate.ValidatePropertyMappings` | src/lib/classes/validate.class.ts:96-126 | throws exactly when some property search throws; otherwise the result is that of the reference fold of the loop: an error exactly when some mapping names no acceptable property, is a second key or is a second expandable mapping, with the message of the last offender naming its property first; otherwise success |
| `Validate.SecondNameIsHolder` | src/lib/classes/validate.class.ts:108-119 | a second-key or second-expandable error names the offender and then the first mapping that held the flag |
| `Validate.CleanMappingsAreWellFormed` | src/lib/classes/validate.class.ts:93-95 | mappings that pass all name acceptable properties, and hold at most one key and at most one expandable mapping |
| `Validate.LastOffenderIsReported` | src/lib/classes/validate.class.ts:101-106 | with two unknown properties "a" and "b", the error names "b" |
| `Validate.CheckExpansionAndClickOptions` | src/lib/classes/validate.class.ts:13-27 | with neither expansion nor click, success; otherwise a missing key comes first, then expansion with neither template nor property, then "invalid expandable property" exactly when the expandable property is not found; never throws when no searched slot is null |
| `Columns.ImplicitMapping` | src/lib/component/data-table.component.ts:244-245 | an implicit column is named after its property, has the default composition property and no flags |
| `Columns.ImplicitMappingIsChained` | src/lib/component/data-table.component.ts:244-245 | that column is what `new PropertyMapping(key).withCompositionProperty(…)` builds |
| `Columns.QualifyingKeysMembers` | src/lib/component/data-table.component.ts:242-245 | the reference name list holds the key of every enumerable, non-ignored, non-function slot, and nothing else |
| `Columns.QualifyingKeysOrdered` | src/lib/component/data-table.component.ts:242-245 | the reference name list keeps the `for…in` order of the keys and holds no ignored name |
| `Columns.QualifyingKeysDistinct` | src/lib/component/data-table.component.ts:242-245 | with pairwise different keys, the reference name list has no repeats |
| `Columns.MapClassFrom` | src/lib/component/data-table.component.ts:242-245 | the loop from a slot on builds only implicit columns, and their names are the reference name list from that slot |
| `Columns.MapClass` | src/lib/component/data-table.component.ts:239-247 | every synthesised column is implicit, with default flags and the default composition property, and is not among the names to ignore; the names are the reference name list of the instance |
| `Columns.MapClassFlagless` | src/lib/component/data-table.component.ts:242-245 | no synthesised column is ignored, a key or expandable, and none has an ignored name |
| `Columns.MapClassColumns` | src/lib/component/data-table.component.ts:239-247 | the synthesised columns are exactly the enumerable, non-function, not already mapped properties, in `for…in` order, each once when the keys differ |
| `Filtering.ColumnMatches` | src/lib/component/data-table.component.ts:298-304 | a column matches exactly when its located text, lower-cased, contains the lower-cased filter text; nothing found does not match; it throws when the search throws |
| `Filtering.AnyColumnMatches` | src/lib/component/data-table.component.ts:298-304 | `some` gives true only when some column matches, throws only when some column's search throws, and gives false exactly when every column gives false |
| `Filtering.SomeStopsAtFirstDecision` | src/lib/component/data-table.component.ts:298-304 | `some` is decided by the first column that does not give false: true exactly when that column matches, a throw exactly when that column's search throws; later columns are not searched |
| `Filtering.SomeFromFirstDecision` | src/lib/component/data-table.component.ts:298-304 | over any list of callback outcomes, `some` gives true or throws exactly as the first outcome that is not false does |
| `Filtering.AnyColumnMatchesIsSome` | src/lib/component/data-table.component.ts:298-304 | the column scan is `some` over the per-column outcomes |
| `Filtering.FilterRecords` | src/lib/component/data-table.component.ts:298-304 | throws exactly when some record's column scan throws; otherwise it gives the reference filter |
| `Filtering.KeepIsSubsequence` | src/lib/component/data-table.component.ts:298-304 | the reference filter keeps records in their order and drops only some of them |
| `Filtering.KeepExactly` | src/lib/component/data-table.component.ts:298-304 | the reference filter keeps a record exactly when it is in the data and matches |
| `Paging.JsSlice` | src/lib/component/data-table.component.ts:319 | `slice` with in-range bounds is the sub-sequence; empty when start is past the end or end is at most start; an end past the length stops at the end |
| `Paging.CeilDiv` | src/lib/component/data-table.component.ts:107 | the page count is the least number of pages of `pageSize` entries that holds them all |
| `Paging.Window` | src/lib/component/data-table.component.ts:317-320 | the window holds at most a page of entries, each the entry at its offset; it holds every entry of the window range that exists; it is empty exactly when the offset is past the end |
| `Paging.PageSlice` | src/lib/component/data-table.component.ts:317-320 | for a page from 1 on, the offset is non-negative and the shown entries are the page's window |
| `Paging.PageEmptyIffPastCount` | src/lib/component/data-table.component.ts:107 | a page is empty exactly when it is past the page count |
| `Paging.RecordOnItsPage` | src/lib/component/data-table.component.ts:317-320 | entry `i` is on page `i / pageSize + 1` at position `i % pageSize`, and that page is within the page count |
| `DataTable.NewTable` | src/lib/component/data-table.component.ts:24-56 | a new component holds its inputs, page size 20 by default, sits on page 1 of 1, and has nothing mapped, filtered or shown |
| `DataTable.FirstMapping` | src/lib/component/data-table.component.ts:86-103 | `find` gives nothing exactly when no mapping qualifies; otherwise a qualifying mapping of the list, namely the first one |
| `DataTable.FirstNameOr` | src/lib/component/data-table.component.ts:100-103 | the name of the first mapping that qualifies, or "" when none does |
| `DataTable.NotIgnoredCounts` | src/lib/component/data-table.component.ts:105 | each non-ignored mapping is kept as often as it occurs and each ignored one is dropped (multiset counts) |
| `DataTable.NotIgnoredMembers` | src/lib/component/data-table.component.ts:105 | a mapping is kept exactly when it is in the list and not ignored |
| `DataTable.NotIgnoredKeepsOrder` | src/lib/component/data-table.component.ts:105 | the kept mappings are a subsequence of the list, so their order is kept |
| `DataTable.NotIgnoredAppend` | src/lib/component/data-table.component.ts:105 | filtering a concatenation filters each part |
| `DataTable.NotIgnoredNone` | src/lib/component/data-table.component.ts:105 | a list with no ignored mapping is kept whole |
| `DataTable.NotIgnoredAtMostOne` | src/lib/component/data-table.component.ts:105 | dropping ignored mappings keeps "at most one key" and "at most one expandable" |
| `DataTable.UpdatePaginatedItens` | src/lib/component/data-table.component.ts:317-320 | only the shown records change; for a page from 1 on, they are that page's window of the filtered records |
| `DataTable.NextPage` | src/lib/component/data-table.component.ts:314-315 | below the page count, moves one page on and refreshes the shown records; otherwise changes nothing |
| `DataTable.PreviousPage` | src/lib/component/data-table.component.ts:311-312 | above page 1, moves one page back and refreshes the shown records; otherwise changes nothing |
| `DataTable.NavigationKeepsCursor` | src/lib/component/data-table.component.ts:311-320 | paging keeps the cursor on an existing page, shows that page, and never changes the page count |
| `DataTable.NavigationRoundTrip` | src/lib/component/data-table.component.ts:311-320 | a step back undoes a step forward and the other way round, when a step is possible |
| `DataTable.EveryRecordHasAPage` | src/lib/component/data-table.component.ts:107 | with the page count taken from the filtered data, every filtered record is shown on some page within it |
| `DataTable.FilterData` | src/lib/component/data-table.component.ts:296-309 | an empty filter shows the whole data source; otherwise exactly the matching records, in order; only the filtered records change; it throws exactly when some record's column scan throws |
| `DataTable.FilterKeepsCursor` | src/lib/component/data-table.component.ts:296-309 | filtering leaves the cursor on an existing page |
| `DataTable.SetUpView` | src/lib/component/data-table.component.ts:97-107 | shows the whole data source and its first page, defaults empty key and expandable names from the full column list, drops ignored columns and counts the pages; nothing else changes |
| `DataTable.FullMappingShape` | src/lib/component/data-table.component.ts:83-84 | the column list is the explicit mappings followed by implicit columns with no flags, none named like an explicit mapping |
| `DataTable.FullMappingAtMostOne` | src/lib/component/data-table.component.ts:83-84 | when the explicit mappings hold at most one key and one expandable mapping, so does the column list, because implicit columns carry no flags |
| `DataTable.FullMappingFlags` | src/lib/component/data-table.component.ts:83-103 | when the explicit mappings hold at most one key and one expandable mapping, so does the column list, and `find` returns the explicit one, or nothing when none is declared |
| `DataTable.KeyFoundIffDeclared` | src/lib/component/data-table.component.ts:83-86 | `find` meets a key column in the column list exactly when an explicit mapping is flagged as the key |
| `DataTable.FindsExplicitKey` | src/lib/component/data-table.component.ts:83-86 | with at most one explicit key mapping, `find` on the column list returns it |
| `DataTable.FindsExplicitExpandable` | src/lib/component/data-table.component.ts:83-103 | with at most one explicit expandable mapping, `find` on the column list returns it, and nothing when none is flagged |
| `DataTable.ShownColumns` | src/lib/component/data-table.component.ts:83-105 | the shown columns are exactly the non-ignored explicit mappings, in order, followed by every implicit column in `mapClass` order; under at most one explicit key and expandable mapping, at most one key and one expandable column are shown, and any shown flag comes from an explicit mapping |
| `DataTable.ShownColumnsInOrder` | src/lib/component/data-table.component.ts:83-105 | dropping the ignored columns of the column list gives the non-ignored explicit mappings followed by all implicit columns |
| `DataTable.KeysAfterCleanInit` | src/lib/component/data-table.component.ts:86-103 | after a clean validation and a passed uniqueness check, the declared key becomes the key name, the declared expandable column fills an empty expandable name, and undeclared ones keep the inputs |
| `DataTable.ViewAfterCleanInit` | src/lib/component/data-table.component.ts:75-107 | after a clean validation and a passed uniqueness check, setting up the view gives a component that is `Initialised` |
| `DataTable.StoreColumns` | src/lib/component/data-table.component.ts:83-107 | it throws exactly when an explicit mapping is the key and some record is null or undefined; a duplicate key fails with the full column list stored; with at most one explicit key mapping, the outcome is an error exactly when the declared key's values repeat; under at most one key and one expandable mapping, any other outcome is success and `Initialised` |
| `DataTable.InitColumns` | src/lib/component/data-table.component.ts:75-107 | throws exactly when a property search throws, or the mapping checks pass, a key is declared and some record is null or undefined; a failed mapping check is reported as it is with the component unchanged; after passed mapping checks the outcome is an error exactly when the declared key's values repeat, and that error is "multiple elements with same key" with `mapping` set to the full column list and nothing else changed; any other error leaves the component as it was; success sets the component up as `Initialised` says |
| `DataTable.NgOnInit` | src/lib/component/data-table.component.ts:60-112 | the class check comes first, then the data check, then the column checks; it throws exactly when both checks pass and the column checks throw; a failed mapping check is reported unchanged, and after passed mapping checks the outcome is an error exactly when the declared key's values repeat, and that error is "multiple elements with same key" with `mapping` set to the full column list, ignored columns included, and nothing else changed; every other failure leaves the component as it was; success means both checks passed and the component is `Initialised`: the shown columns are the non-ignored explicit mappings followed by the implicit ones, flags only on explicit mappings, declared key unique and in use, first page of the whole data shown, page count the ceiling of records over page size |
| `DataTable.InitAcceptsOnlyInstances` | src/lib/component/data-table.component.ts:69-73 | after a successful init with no null or undefined record, every record is an instance of the class |
| `DataTable.InitAcceptsOnlyKnownProperties` | src/lib/component/data-table.component.ts:75-81 | after a successful init, every explicit mapping names a property that `checkIfHasAndIsntFunction` finds on a fresh instance of the class |
| `DataTable.ColumnsNameKnownProperties` | src/lib/classes/validate.class.ts:101-106 | the column checks succeed only when every explicit mapping names a property that `checkIfHasAndIsntFunction` finds on the fresh instance |
| `DataTable.InitShowsFirstPage` | src/lib/component/data-table.component.ts:97-107 | from page 1, a successful init leaves the cursor on an existing page that is the one shown |
| `DataTable.EmptySourceHasNoPages` | src/lib/component/data-table.component.ts:107 | an empty data source gets a page count of 0, and `nextPage` does nothing |

## Left out

- The DOM work is not modelled: `rowClicked`, `target`, `expand` and the sanitised expanded HTML. The same goes for the click `EventEmitter`, the templates and the labels (`labelActualPage` and the others). These are rendering and event wiring, not table logic.
- `console.error` is not modelled. A logged error is modelled as the returned `ValidationResult`.
- `checkIfIsDate`, the date formatting, `FilterMapping` and the column filters (`useColumnsFilter`) are not part of this model. They sit outside the table engine's core.
- The error messages' prose is replaced by their kind plus the property names spliced into them.
- `toLocaleLowerCase` is modelled as ASCII lower-casing, because locale tables are outside Dafny.
- Properties of primitives and functions (`"ab".length`, `f.name`) and members inherited from `Object.prototype` or `Array.prototype` are left out, apart from an array's `length`. A custom `toString` is left out too.
- Values are finite trees. Cyclic records, on which the source's searches would not terminate, are not representable.
- `Validate.ValidateUniquenessOfKeyProperty` compares key values structurally. JavaScript's `Set` compares objects by identity, so two distinct but equal-looking object keys count as a duplicate here and not in the source.
- `Paging.PageSize` is a positive whole number. The source accepts any number for `pageSize` and never checks it.
- The Angular module wiring and the `Class`/`Obj` type aliases are not part of this model.

=== FILE: columns.dfy ===
/** Implicit column synthesis (`mapClass`): one mapping per enumerable,
    non-function property of a sample instance that no explicit mapping
    covers, in `for…in` order. The synthesis is shallow. */
module Columns {
  import opened JsValues
  import opened PropertyMappings
  import opened Seqs

  /** The mapping `mapClass` builds for a property. */
  function ImplicitMapping(name: string, defaultCompositionProperty: string): (m: PropertyMapping)
    ensures m.propertyName == name && m.columnName == name
    ensures m.compositionPropertyName == defaultCompositionProperty
    ensures !m.isIgnored && !m.isPrimaryKey && !m.isExpandableContent
  {
    PropertyMapping(name, name, false, false, false, defaultCompositionProperty)
  }

  /** It is what `new PropertyMapping(key).withCompositionProperty(…)` builds. */
  lemma ImplicitMappingIsChained(name: string, defaultCompositionProperty: string)
    ensures ImplicitMapping(name, defaultCompositionProperty)
      == NewMapping(name).WithCompositionProperty(defaultCompositionProperty)
  {
  }

  /** Slot `i` yields a column: `for…in` visits it, its name is not already
      mapped, and its value is not a function. */
  predicate Qualifies(v: Value, i: nat, propsToIgnore: seq<string>)
    requires i < Width(v)
  {
    Enumerated(v, i) && SlotKey(v, i) !in propsToIgnore && !Slot(v, i).Func?
  }

  /** The keys of slots `i` onwards, in `for…in` order. */
  function KeysFrom(v: Value, i: nat): seq<string>
    decreases Width(v) - i
  {
    if i >= Width(v) then [] else [SlotKey(v, i)] + KeysFrom(v, i + 1)
  }

  /** Slots `i` onwards have pairwise different keys (true of any JavaScript object). */
  predicate DistinctKeysFrom(v: Value, i: nat) {
    forall a, b :: i <= a < b < Width(v) ==> SlotKey(v, a) != SlotKey(v, b)
  }

  /** Reference list of column names: the keys of the qualifying slots
      from `i` on, in `for…in` order. */
  function QualifyingKeys(v: Value, i: nat, propsToIgnore: seq<string>): seq<string>
    decreases Width(v) - i
  {
    if i >= Width(v) then []
    else (if Qualifies(v, i, propsToIgnore) then [SlotKey(v, i)] else []) + QualifyingKeys(v, i + 1, propsToIgnore)
  }

  /** The loop of `mapClass` from slot `i` on: one implicit mapping per
      qualifying slot, named by the reference list. */
  function MapClassFrom(v: Value, i: nat, propsToIgnore: seq<string>, defaultCompositionProperty: string)
    : (r: seq<PropertyMapping>)
    ensures forall j :: 0 <= j < |r| ==> r[j] == ImplicitMapping(r[j].propertyName, defaultCompositionProperty)
    ensures Names(r) == QualifyingKeys(v, i, propsToIgnore)
    decreases Width(v) - i
  {
    if i >= Width(v) then []
    else
      var rest := MapClassFrom(v, i + 1, propsToIgnore, defaultCompositionProperty);
      if Qualifies(v, i, propsToIgnore) then
        var r := [ImplicitMapping(SlotKey(v, i), defaultCompositionProperty)] + rest;
        assert Names(r) == [SlotKey(v, i)] + Names(rest);
        r
      else rest
  }

  /** The reference names are exactly the qualifying keys. */
  lemma {:induction false} QualifyingKeysMembers(v: Value, i: nat, propsToIgnore: seq<string>)
    ensures forall k :: i <= k < Width(v) && Qualifies(v, k, propsToIgnore) ==>
      SlotKey(v, k) in QualifyingKeys(v, i, propsToIgnore)
    ensures forall name :: name in QualifyingKeys(v, i, propsToIgnore) ==>
      exists k :: i <= k < Width(v) && Qualifies(v, k, propsToIgnore) && SlotKey(v, k) == name
    decreases Width(v) - i
  {
    if i < Width(v) {
      QualifyingKeysMembers(v, i + 1, propsToIgnore);
      var rest := QualifyingKeys(v, i + 1, propsToIgnore);
      var r := QualifyingKeys(v, i, propsToIgnore);
      forall k | i <= k < Width(v) && Qualifies(v, k, propsToIgnore) ensures SlotKey(v, k) in r {
        if k > i { assert SlotKey(v, k) in rest; }
      }
      forall name | name in r
        ensures exists k :: i <= k < Width(v) && Qualifies(v, k, propsToIgnore) && SlotKey(v, k) == name
      {
        if name in rest {
          var k :| i + 1 <= k < Width(v) && Qualifies(v, k, propsToIgnore) && SlotKey(v, k) == name;
        } else {
          assert Qualifies(v, i, propsToIgnore) && name == SlotKey(v, i);
        }
      }
    }
  }

  /** The reference names keep the slots' order and are never ignored ones. */
  lemma {:induction false} QualifyingKeysOrdered(v: Value, i: nat, propsToIgnore: seq<string>)
    ensures IsSubsequence(QualifyingKeys(v, i, propsToIgnore), KeysFrom(v, i))
    ensures forall name :: name in QualifyingKeys(v, i, propsToIgnore) ==> name !in propsToIgnore
    decreases Width(v) - i
  {
    if i < Width(v) {
      QualifyingKeysOrdered(v, i + 1, propsToIgnore);
      var rest := QualifyingKeys(v, i + 1, propsToIgnore);
      assert KeysFrom(v, i) == [SlotKey(v, i)] + KeysFrom(v, i + 1);
      SubsequenceCons(rest, KeysFrom(v, i + 1), SlotKey(v, i));
      if Qualifies(v, i, propsToIgnore) {
        assert QualifyingKeys(v, i, propsToIgnore) == [SlotKey(v, i)] + rest;
      } else {
        assert QualifyingKeys(v, i, propsToIgnore) == rest;
      }
    }
  }

  /** Distinct keys give each qualifying property exactly one column. */
  lemma {:induction false} QualifyingKeysDistinct(v: Value, i: nat, propsToIgnore: seq<string>)
    ensures DistinctKeysFrom(v, i) ==> Distinct(QualifyingKeys(v, i, propsToIgnore))
    decreases Width(v) - i
  {
    if i < Width(v) && DistinctKeysFrom(v, i) {
      assert DistinctKeysFrom(v, i + 1);
      QualifyingKeysDistinct(v, i + 1, propsToIgnore);
      var rest := QualifyingKeys(v, i + 1, propsToIgnore);
      if Qualifies(v, i, propsToIgnore) {
        assert QualifyingKeys(v, i, propsToIgnore) == [SlotKey(v, i)] + rest;
        KeyNotLater(v, i, propsToIgnore);
        DistinctCons(SlotKey(v, i), rest);
      } else {
        assert QualifyingKeys(v, i, propsToIgnore) == rest;
      }
    }
  }

  /** With distinct keys, the key of slot `i` is not among the later names. */
  lemma KeyNotLater(v: Value, i: nat, propsToIgnore: seq<string>)
    requires i < Width(v) && DistinctKeysFrom(v, i)
    ensures SlotKey(v, i) !in QualifyingKeys(v, i + 1, propsToIgnore)
  {
    QualifyingKeysMembers(v, i + 1, propsToIgnore);
    assert forall k :: i + 1 <= k < Width(v) ==> SlotKey(v, k) != SlotKey(v, i);
  }

  /** `mapClass(instance, propsToIgnore)`: one implicit column, with the
      default composition property and default flags, per qualifying
      property in `for…in` order; none of them is among `propsToIgnore`. */
  function MapClass(instance: Value, propsToIgnore: seq<string>, defaultCompositionProperty: string)
    : (r: seq<PropertyMapping>)
    ensures forall j :: 0 <= j < |r| ==>
      r[j] == ImplicitMapping(r[j].propertyName, defaultCompositionProperty) && r[j].propertyName !in propsToIgnore
    ensures Names(r) == QualifyingKeys(instance, 0, propsToIgnore)
  {
    QualifyingKeysOrdered(instance, 0, propsToIgnore);
    var r := MapClassFrom(instance, 0, propsToIgnore, defaultCompositionProperty);
    assert forall j :: 0 <= j < |r| ==> r[j].propertyName == Names(r)[j];
    r
  }

  /** The columns of `mapClass` carry no flags and none is an ignored name. */
  lemma MapClassFlagless(instance: Value, propsToIgnore: seq<string>, defaultCompositionProperty: string)
    ensures var r := MapClass(instance, propsToIgnore, defaultCompositionProperty);
      forall k :: 0 <= k < |r| ==>
        !r[k].isIgnored && !r[k].isPrimaryKey && !r[k].isExpandableContent && r[k].propertyName !in propsToIgnore
  {
    var r := MapClass(instance, propsToIgnore, defaultCompositionProperty);
    forall k | 0 <= k < |r|
      ensures !r[k].isIgnored && !r[k].isPrimaryKey && !r[k].isExpandableContent
    {
      assert r[k] == ImplicitMapping(r[k].propertyName, defaultCompositionProperty);
    }
  }

  /** The columns `mapClass` synthesises are exactly the qualifying
      properties, in `for…in` order, each once. */
  lemma MapClassColumns(instance: Value, propsToIgnore: seq<string>, defaultCompositionProperty: string)
    ensures var names := Names(MapClass(instance, propsToIgnore, defaultCompositionProperty));
      && (forall k :: 0 <= k < Width(instance) && Qualifies(instance, k, propsToIgnore) ==> SlotKey(instance, k) in names)
      && (forall name :: name in names ==>
            exists k :: 0 <= k < Width(instance) && Qualifies(instance, k, propsToIgnore) && SlotKey(instance, k) == name)
      && IsSubsequence(names, KeysFrom(instance, 0))
      && (DistinctKeysFrom(instance, 0) ==> Distinct(names))
  {
    QualifyingKeysMembers(instance, 0, propsToIgnore);
    QualifyingKeysOrdered(instance, 0, propsToIgnore);
    QualifyingKeysDistinct(instance, 0, propsToIgnore);
  }
}

=== FILE: display.dfy ===
/** How a cell's text is obtained: `obtainProperValue` formats a value and
    `findPropertyValue` locates the mapped property in a record. */
module Display {
  import opened JsValues
  import opened PropertyMappings
  import opened ObjectSearch

  /** `obtainProperValue(value, mapping)`, dispatching in the source's order:
      an array whose first element is not an object gives its `toString`
      (the empty array gives ""); an array whose first element is an object
      gives each element's composition sub-value, joined by ","; any other
      object gives its composition sub-value stringified; anything else is
      stringified. `null` is an object, so reading a sub-value of it throws. */
  function ObtainProperValue(v: Value, m: PropertyMapping): (r: Eval<string>)
    ensures r.Throws? <==>
      v.Null? ||
      (v.Arr? && |v.elems| > 0 && IsObjectTyped(v.elems[0]) &&
       exists k :: 0 <= k < |v.elems| && IsNullish(v.elems[k]))
    ensures v.Arr? && (|v.elems| == 0 || !IsObjectTyped(v.elems[0])) ==> r == Returns(ToStr(v))
    ensures v.Arr? && |v.elems| > 0 && IsObjectTyped(v.elems[0]) && r.Returns? ==>
      r.value == JoinArray(GetEach(v.elems, m.compositionPropertyName))
    ensures v.Arr? && |v.elems| == 0 ==> r == Returns("")
    ensures v.Obj? ==> r == Returns(ToStr(Get(v, m.compositionPropertyName)))
    ensures !IsObjectTyped(v) ==> r == Returns(ToStr(v))
  {
    match v
    case Arr(es) =>
      if |es| == 0 || !IsObjectTyped(es[0]) then Returns(JoinArray(es))
      else (
        match MemberOfEach(es, m.compositionPropertyName)
        case Throws => Throws
        case Returns(subs) => Returns(JoinArray(subs)))
    case Obj(_, _) => Returns(ToStr(Get(v, m.compositionPropertyName)))
    case Null => Throws
    case _ => Returns(ToStr(v))
  }

  /** What `findPropertyValue` makes of a formatted value: a found string. */
  function AsFound(e: Eval<string>): Eval<Option<string>> {
    match e
    case Throws => Throws
    case Returns(s) => Returns(Some(s))
  }

  /** Slot `j` is entered by `findPropertyValue`: searched and not null. */
  predicate Entered(v: Value, j: nat)
    requires j < Width(v)
  {
    Searched(v, j) && !Slot(v, j).Null?
  }

  /** Reference meaning of "found": some node reachable through entered
      slots has the property with a value other than undefined. */
  ghost predicate Locatable(v: Value, name: string)
    decreases v
  {
    !Get(v, name).Undefined? ||
    exists j :: 0 <= j < Width(v) && Entered(v, j) && Locatable(Slot(v, j), name)
  }

  /** Some node reachable through entered slots holds the property with a
      value other than undefined, and that value formats as `s`. */
  ghost predicate Shows(v: Value, m: PropertyMapping, s: string)
    decreases v
  {
    (!Get(v, m.propertyName).Undefined? && ObtainProperValue(Get(v, m.propertyName), m) == Returns(s)) ||
    exists j :: 0 <= j < Width(v) && Entered(v, j) && Shows(Slot(v, j), m, s)
  }

  /** `findPropertyValue(record, mapping)`: the formatted top-level value if
      it is not undefined; otherwise the first hit of a depth-first search
      through the non-null object-valued slots, in iteration order; `None`
      stands for the `undefined` returned when nothing is found. */
  function FindPropertyValue(v: Value, m: PropertyMapping): (r: Eval<Option<string>>)
    ensures IsNullish(v) ==> r.Throws?
    ensures !IsNullish(v) ==> (r == Returns(None) <==> !Locatable(v, m.propertyName))
    ensures !IsNullish(v) && !Get(v, m.propertyName).Undefined? ==>
      r == AsFound(ObtainProperValue(Get(v, m.propertyName), m))
    ensures !IsNullish(v) && Get(v, m.propertyName).Undefined? ==> r == FindAmongChildren(v, 0, m)
    ensures r.Returns? && r.value.Some? ==> Shows(v, m, r.value.value)
    decreases v, 1
  {
    if IsNullish(v) then Throws
    else if !Get(v, m.propertyName).Undefined? then AsFound(ObtainProperValue(Get(v, m.propertyName), m))
    else FindAmongChildren(v, 0, m)
  }

  /** The `for…in` loop of `findPropertyValue` from slot `i` on. */
  function FindAmongChildren(v: Value, i: nat, m: PropertyMapping): (r: Eval<Option<string>>)
    ensures r == Returns(None) <==>
      forall j :: i <= j < Width(v) && Entered(v, j) ==> !Locatable(Slot(v, j), m.propertyName)
    ensures r.Returns? && r.value.Some? ==>
      exists j :: i <= j < Width(v) && Entered(v, j) && Shows(Slot(v, j), m, r.value.value)
    ensures r.Returns? && r.value.Some? ==>
      exists j :: i <= j < Width(v) && Entered(v, j) && FindPropertyValue(Slot(v, j), m) == r &&
        forall k :: i <= k < j && Entered(v, k) ==> FindPropertyValue(Slot(v, k), m) == Returns(None)
    ensures r.Throws? <==>
      exists j :: i <= j < Width(v) && Entered(v, j) && FindPropertyValue(Slot(v, j), m).Throws? &&
        forall k :: i <= k < j && Entered(v, k) ==> FindPropertyValue(Slot(v, k), m) == Returns(None)
    decreases v, 0, Width(v) - i
  {
    if i >= Width(v) then Returns(None)
    else if Entered(v, i) then
      match FindPropertyValue(Slot(v, i), m)
      case Throws => Throws
      case Returns(Some(s)) => Returns(Some(s))
      case Returns(None) => FindAmongChildren(v, i + 1, m)
    else FindAmongChildren(v, i + 1, m)
  }
}

=== FILE: filtering.dfy ===
/** The general filter of `filterData`: keep the records in which some
    mapped column's text contains the filter text, ignoring case. */
module Filtering {
  import opened JsValues
  import opened PropertyMappings
  import opened Display
  import opened Seqs

  /** The callback of `mapping.some(…)` for one column: the column's value
      must be a string (not the `undefined` of "not found") that contains the
      filter text once both are lower-cased. */
  function ColumnMatches(rec: Value, m: PropertyMapping, filterInput: string): (r: Eval<bool>)
    ensures r.Throws? <==> FindPropertyValue(rec, m).Throws?
    ensures r == Returns(true) <==>
      exists s :: FindPropertyValue(rec, m) == Returns(Some(s)) && Includes(Lower(s), Lower(filterInput))
  {
    match FindPropertyValue(rec, m)
    case Throws => Throws
    case Returns(None) => Returns(false)
    case Returns(Some(s)) => Returns(Includes(Lower(s), Lower(filterInput)))
  }

  /** Reference meaning of the filter: some column matches. */
  ghost predicate Matches(rec: Value, ms: seq<PropertyMapping>, filterInput: string) {
    exists j :: 0 <= j < |ms| && ColumnMatches(rec, ms[j], filterInput) == Returns(true)
  }

  /** `ms.some(…)` from column `j` on: stops at the first match, and a
      throwing column before any match throws. */
  function AnyColumnMatches(rec: Value, ms: seq<PropertyMapping>, filterInput: string, j: nat): (r: Eval<bool>)
    ensures r == Returns(true) ==> exists k :: j <= k < |ms| && ColumnMatches(rec, ms[k], filterInput) == Returns(true)
    ensures r.Throws? ==> exists k :: j <= k < |ms| && ColumnMatches(rec, ms[k], filterInput).Throws?
    ensures r == Returns(false) <==>
      forall k :: j <= k < |ms| ==> ColumnMatches(rec, ms[k], filterInput) == Returns(false)
    decreases |ms| - j
  {
    if j >= |ms| then Returns(false)
    else
      match ColumnMatches(rec, ms[j], filterInput)
      case Throws => Throws
      case Returns(true) => Returns(true)
      case Returns(false) => AnyColumnMatches(rec, ms, filterInput, j + 1)
  }

  /** The columns before `k`, from `j` on, all gave false: `some` reaches
      column `k`. */
  ghost predicate Reached(rec: Value, ms: seq<PropertyMapping>, filterInput: string, j: nat, k: nat)
    requires k <= |ms|
  {
    forall i :: j <= i < k ==> ColumnMatches(rec, ms[i], filterInput) == Returns(false)
  }

  /** `some` stops at the first column that does not give false: it gives
      true exactly when that column matches and throws exactly when that
      column's search throws; later columns are never searched. */
  lemma SomeStopsAtFirstDecision(rec: Value, ms: seq<PropertyMapping>, filterInput: string, j: nat)
    ensures AnyColumnMatches(rec, ms, filterInput, j) == Returns(true) <==>
      exists k :: j <= k < |ms| && ColumnMatches(rec, ms[k], filterInput) == Returns(true) && Reached(rec, ms, filterInput, j, k)
    ensures AnyColumnMatches(rec, ms, filterInput, j).Throws? <==>
      exists k :: j <= k < |ms| && ColumnMatches(rec, ms[k], filterInput).Throws? && Reached(rec, ms, filterInput, j, k)
  {
    var cs := Outcomes(rec, ms, filterInput);
    AnyColumnMatchesIsSome(rec, ms, filterInput, j);
    SomeFromFirstDecision(cs, j);
    forall k | j <= k <= |ms| ensures Reached(rec, ms, filterInput, j, k) <==> AllFalse(cs, j, k) {
    }
  }

  /** The outcome of the `some` callback on each column. */
  function Outcomes(rec: Value, ms: seq<PropertyMapping>, filterInput: string): (cs: seq<Eval<bool>>)
    ensures |cs| == |ms|
    ensures forall i :: 0 <= i < |ms| ==> cs[i] == ColumnMatches(rec, ms[i], filterInput)
  {
    seq(|ms|, i requires 0 <= i < |ms| => ColumnMatches(rec, ms[i], filterInput))
  }

  /** `some` over a list of callback outcomes, from position `j` on. */
  function SomeFrom(cs: seq<Eval<bool>>, j: nat): Eval<bool>
    decreases |cs| - j
  {
    if j >= |cs| then Returns(false)
    else
      match cs[j]
      case Throws => Throws
      case Returns(true) => Returns(true)
      case Returns(false) => SomeFrom(cs, j + 1)
  }

  /** Every outcome from `j` up to `k` is false. */
  ghost predicate AllFalse(cs: seq<Eval<bool>>, j: nat, k: nat)
    requires k <= |cs|
  {
    forall i :: j <= i < k ==> cs[i] == Returns(false)
  }

  lemma {:induction false} AnyColumnMatchesIsSome(rec: Value, ms: seq<PropertyMapping>, filterInput: string, j: nat)
    ensures AnyColumnMatches(rec, ms, filterInput, j) == SomeFrom(Outcomes(rec, ms, filterInput), j)
    decreases |ms| - j
  {
    if j < |ms| {
      AnyColumnMatchesIsSome(rec, ms, filterInput, j + 1);
    }
  }

  /** `some` is decided by the first outcome that is not false. */
  lemma {:induction false} SomeFromFirstDecision(cs: seq<Eval<bool>>, j: nat)
    ensures SomeFrom(cs, j) == Returns(true) <==>
      exists k :: j <= k < |cs| && cs[k] == Returns(true) && AllFalse(cs, j, k)
    ensures SomeFrom(cs, j).Throws? <==>
      exists k :: j <= k < |cs| && cs[k].Throws? && AllFalse(cs, j, k)
    decreases |cs| - j
  {
    if j < |cs| {
      SomeFromFirstDecision(cs, j + 1);
      assert AllFalse(cs, j, j);
      forall k | j < k <= |cs| ensures AllFalse(cs, j, k) <==> cs[j] == Returns(false) && AllFalse(cs, j + 1, k) {
      }
    }
  }

  /** Reference filter: the records that match, in their original order. */
  ghost function Keep(data: seq<Value>, ms: seq<PropertyMapping>, filterInput: string): seq<Value> {
    if |data| == 0 then []
    else (if Matches(data[0], ms, filterInput) then [data[0]] else []) + Keep(data[1..], ms, filterInput)
  }

  /** `dataSource.filter(…)` with the column scan as callback: the
      reference filter, unless a callback throws, which throws out of the
      whole filter. */
  function FilterRecords(data: seq<Value>, ms: seq<PropertyMapping>, filterInput: string): (r: Eval<seq<Value>>)
    ensures r.Throws? <==> exists i :: 0 <= i < |data| && AnyColumnMatches(data[i], ms, filterInput, 0).Throws?
    ensures r.Returns? ==> r.value == Keep(data, ms, filterInput)
  {
    if |data| == 0 then Returns([])
    else
      match AnyColumnMatches(data[0], ms, filterInput, 0)
      case Throws => Throws
      case Returns(keep) =>
        SomeMeansMatches(data[0], ms, filterInput);
        match FilterRecords(data[1..], ms, filterInput)
        case Throws =>
          assert forall i :: 0 <= i < |data| - 1 ==> data[1..][i] == data[i + 1];
          Throws
        case Returns(rest) =>
          assert forall i :: 0 < i < |data| ==> data[i] == data[1..][i - 1];
          if keep then Returns([data[0]] + rest) else Returns(rest)
  }

  /** When `some` returns, it answers whether some column matches. */
  lemma SomeMeansMatches(rec: Value, ms: seq<PropertyMapping>, filterInput: string)
    ensures AnyColumnMatches(rec, ms, filterInput, 0).Returns? ==>
      (AnyColumnMatches(rec, ms, filterInput, 0).value <==> Matches(rec, ms, filterInput))
  {
  }

  /** The reference filter keeps records in their original order. */
  lemma {:induction false} KeepIsSubsequence(data: seq<Value>, ms: seq<PropertyMapping>, filterInput: string)
    ensures IsSubsequence(Keep(data, ms, filterInput), data)
  {
    if |data| > 0 {
      KeepIsSubsequence(data[1..], ms, filterInput);
      var rest := Keep(data[1..], ms, filterInput);
      SubsequenceCons(rest, data[1..], data[0]);
      assert data == [data[0]] + data[1..];
      if Matches(data[0], ms, filterInput) {
        assert Keep(data, ms, filterInput) == [data[0]] + rest;
      } else {
        assert Keep(data, ms, filterInput) == rest;
      }
    }
  }

  /** The reference filter keeps exactly the matching records. */
  lemma {:induction false} KeepExactly(data: seq<Value>, ms: seq<PropertyMapping>, filterInput: string)
    ensures forall x :: x in Keep(data, ms, filterInput) ==> x in data && Matches(x, ms, filterInput)
    ensures forall x :: x in data && Matches(x, ms, filterInput) ==> x in Keep(data, ms, filterInput)
  {
    if |data| > 0 {
      KeepExactly(data[1..], ms, filterInput);
      var rest := Keep(data[1..], ms, filterInput);
      assert Keep(data, ms, filterInput) == (if Matches(data[0], ms, filterInput) then [data[0]] else []) + rest;
      forall x | x in data && Matches(x, ms, filterInput) ensures x in Keep(data, ms, filterInput) {
        if x != data[0] {
          assert x in data[1..];
        }
      }
    }
  }
}

=== FILE: js_values.dfy ===
/** The slice of JavaScript's value model that the table engine relies on:
    records are finite trees of ordered fields, `typeof`, the `in` operator,
    property lookup with `[]`, `for…in` enumeration and string conversion.
 */
module JsValues {

  /** The `typeof` of a primitive that is neither null nor undefined. */
  datatype PrimType = StringType | NumberType | BooleanType | OtherPrimitive

  /** One property of an object. `enumerable` properties are the ones
      `for…in` visits; the others (class methods on the prototype, say) are
      still seen by `in` and `[]`. */
  datatype Field = Field(key: string, val: Value, enumerable: bool)

  /** A JavaScript value. A primitive keeps its `String(…)` form in `text`;
      a function keeps its source text (what `String(f)` gives); an object
      lists its fields in `for…in` order and the names of the classes on its
      prototype chain. Values are finite trees: there are no cycles. */
  datatype Value =
    | Prim(kind: PrimType, text: string)
    | Null
    | Undefined
    | Func(source: string)
    | Arr(elems: seq<Value>)
    | Obj(chain: seq<string>, fields: seq<Field>)

  /** The outcome of evaluating JavaScript that may throw a TypeError
      (`name in null`, `null[name]`, `undefined[name]`). */
  datatype Eval<+T> = Returns(value: T) | Throws {
    predicate IsFailure() { Throws? }

    function PropagateFailure<U>(): Eval<U>
      requires Throws?
    {
      Throws
    }

    function Extract(): T
      requires Returns?
    {
      value
    }
  }

  /** A value that may be absent (`undefined` in the source). */
  datatype Option<+T> = None | Some(value: T)

  /** `typeof v === 'object'`: true of objects, arrays and null. */
  predicate IsObjectTyped(v: Value) {
    v.Obj? || v.Arr? || v.Null?
  }

  /** `v == undefined` (loose equality): null or undefined. */
  predicate IsNullish(v: Value) {
    v.Null? || v.Undefined?
  }

  /** Number of slots `for…in` may visit: fields of an object, indices of an array. */
  function Width(v: Value): nat {
    if v.Obj? then |v.fields| else if v.Arr? then |v.elems| else 0
  }

  /** The value in slot `i`; always a strict sub-tree of `v`. */
  function Slot(v: Value, i: nat): (c: Value)
    requires i < Width(v)
    ensures c < v
  {
    if v.Obj? then v.fields[i].val else v.elems[i]
  }

  /** Whether `for…in` visits slot `i` (every index of an array is visited). */
  predicate Enumerated(v: Value, i: nat)
    requires i < Width(v)
  {
    v.Arr? || v.fields[i].enumerable
  }

  /** The key `for…in` gives for slot `i`: a field's name or an array index. */
  function SlotKey(v: Value, i: nat): string
    requires i < Width(v)
  {
    if v.Obj? then v.fields[i].key else NatToString(i)
  }

  /** The decimal form of a natural number, as `String(n)` writes it. */
  function NatToString(n: nat): (s: string)
    ensures |s| >= 1
    ensures forall k :: 0 <= k < |s| ==> '0' <= s[k] <= '9'
    ensures n >= 10 ==> s[0] != '0'
  {
    if n < 10 then [DigitChar(n)] else NatToString(n / 10) + [DigitChar(n % 10)]
  }

  function DigitChar(d: nat): (c: char)
    requires d < 10
    ensures '0' <= c <= '9'
  {
    "0123456789"[d]
  }

  /** `name in v` for an object or array (own and inherited properties;
      Object.prototype and Array.prototype members are not modelled). */
  predicate HasProperty(v: Value, name: string) {
    match v
    case Obj(_, fs) => exists i :: 0 <= i < |fs| && fs[i].key == name
    case Arr(es) => name == "length" || exists i :: 0 <= i < |es| && NatToString(i) == name
    case _ => false
  }

  /** `v[name]` for a value that is neither null nor undefined; a missing
      property reads as undefined. Properties of primitives and functions
      (`"ab".length`, `f.name`) are not modelled and read as undefined. */
  function Get(v: Value, name: string): (r: Value)
    ensures !HasProperty(v, name) && name != "length" ==> r.Undefined?
  {
    match v
    case Obj(_, fs) => FieldValue(fs, name)
    case Arr(es) =>
      if name == "length" then Prim(NumberType, NatToString(|es|)) else ElementAt(es, name, 0)
    case _ => Undefined
  }

  /** The value of the first field called `name`, or undefined. */
  function FieldValue(fs: seq<Field>, name: string): (r: Value)
    ensures (exists i :: 0 <= i < |fs| && fs[i].key == name) || r.Undefined?
    ensures forall i :: 0 <= i < |fs| && fs[i].key == name && (forall k :: 0 <= k < i ==> fs[k].key != name) ==> r == fs[i].val
  {
    if |fs| == 0 then Undefined
    else if fs[0].key == name then fs[0].val
    else FieldValue(fs[1..], name)
  }

  /** The element whose index is written `name`, scanning indices from `from`. */
  function ElementAt(es: seq<Value>, name: string, from: nat): (r: Value)
    ensures (forall i :: from <= i < |es| ==> NatToString(i) != name) ==> r.Undefined?
    decreases |es| - from
  {
    if from >= |es| then Undefined
    else if NatToString(from) == name then es[from]
    else ElementAt(es, name, from + 1)
  }

  /** `v[name]` read from each value of `es`, none of them null or undefined. */
  function GetEach(es: seq<Value>, name: string): (r: seq<Value>)
    ensures |r| == |es|
    ensures forall k :: 0 <= k < |es| ==> r[k] == Get(es[k], name)
  {
    if |es| == 0 then [] else [Get(es[0], name)] + GetEach(es[1..], name)
  }

  /** `es.map(e => e[name])`, which throws at the first null or undefined element. */
  function MemberOfEach(es: seq<Value>, name: string): (r: Eval<seq<Value>>)
    ensures r.Throws? <==> exists k :: 0 <= k < |es| && IsNullish(es[k])
    ensures r.Returns? ==> r.value == GetEach(es, name)
  {
    if |es| == 0 then Returns([])
    else if IsNullish(es[0]) then Throws
    else
      match MemberOfEach(es[1..], name)
      case Throws =>
        assert forall k :: 0 <= k < |es| - 1 ==> es[1..][k] == es[k + 1];
        Throws
      case Returns(rest) =>
        assert es == [es[0]] + es[1..];
        Returns([Get(es[0], name)] + rest)
  }

  /** `String(v)`, the text a template literal `${v}` produces. Objects give
      "[object Object]" (a custom `toString` is not modelled); arrays give
      `Array.prototype.toString`, their elements joined by ",". */
  function ToStr(v: Value): string
    decreases v, 1
  {
    match v
    case Prim(_, t) => t
    case Null => "null"
    case Undefined => "undefined"
    case Func(src) => src
    case Obj(_, _) => "[object Object]"
    case Arr(es) => JoinArray(es)
  }

  /** How `Array.prototype.join` writes one element: null and undefined become "". */
  function ElementText(v: Value): string
    decreases v, 2
  {
    if IsNullish(v) then "" else ToStr(v)
  }

  /** `es.toString()`: the elements' texts separated by ",". */
  function JoinArray(es: seq<Value>): (s: string)
    decreases es
  {
    if |es| == 0 then ""
    else if |es| == 1 then ElementText(es[0])
    else ElementText(es[0]) + "," + JoinArray(es[1..])
  }

  /** `toLocaleLowerCase`, modelled as ASCII lower-casing. */
  function Lower(s: string): (r: string)
    ensures |r| == |s|
    ensures forall k :: 0 <= k < |s| ==> r[k] == LowerChar(s[k])
  {
    if |s| == 0 then "" else [LowerChar(s[0])] + Lower(s[1..])
  }

  function LowerChar(c: char): char {
    if 'A' <= c <= 'Z' then (c as int + 32) as char else c
  }

  /** `s.includes(sub)`. */
  predicate Includes(s: string, sub: string) {
    exists i :: 0 <= i <= |s| - |sub| && OccursAt(s, sub, i)
  }

  /** `sub` occurs in `s` starting at index `i`. */
  predicate OccursAt(s: string, sub: string, i: nat) {
    i + |sub| <= |s| && s[i..i + |sub|] == sub
  }
}

=== FILE: object_search.dfy ===
/** Depth-first search for a property name through the object-valued fields
    of a record (`checkIfHas` and `checkIfHasAndIsntFunction`). */
module ObjectSearch {
  import opened JsValues

  /** Slot `j` of `v` is entered by the search: `for…in` visits it and its
      value has `typeof … === 'object'` (which includes null and arrays). */
  predicate Searched(v: Value, j: nat)
    requires j < Width(v)
  {
    Enumerated(v, j) && IsObjectTyped(Slot(v, j))
  }

  /** Reference meaning of a successful search: `name` is a property of `v`
      or of an object or array reachable from it through searched slots. */
  ghost predicate Reaches(v: Value, name: string)
    decreases v
  {
    (v.Obj? || v.Arr?) &&
    (HasProperty(v, name) ||
     exists j :: 0 <= j < Width(v) && Searched(v, j) && Reaches(Slot(v, j), name))
  }

  /** No searched slot anywhere below `v` holds null, so `in` never throws. */
  ghost predicate NullFree(v: Value)
    decreases v
  {
    forall j :: 0 <= j < Width(v) && Searched(v, j) ==> !Slot(v, j).Null? && NullFree(Slot(v, j))
  }

  /** `Validate.checkIfHas(instance, name)`: true when `name in v`, else the
      first searched slot whose value has the name somewhere below it. The
      `in` operator throws on null, so a null slot reached before a hit
      throws; a function-valued match counts. */
  function CheckIfHas(v: Value, name: string): (r: Eval<bool>)
    ensures r == Returns(true) ==> Reaches(v, name)
    ensures r == Returns(false) ==> !Reaches(v, name)
    ensures (v.Obj? || v.Arr?) && NullFree(v) ==> r.Returns?
    ensures v.Null? ==> r.Throws?
    decreases v, 1
  {
    if v.Obj? || v.Arr? then
      if HasProperty(v, name) then Returns(true) else ScanChildren(v, 0, name)
    else if v.Func? then Returns(false)
    else Throws
  }

  /** The `for…in` loop of `checkIfHas` from slot `i` on. */
  function ScanChildren(v: Value, i: nat, name: string): (r: Eval<bool>)
    requires v.Obj? || v.Arr?
    ensures r == Returns(true) ==> exists j :: i <= j < Width(v) && Searched(v, j) && Reaches(Slot(v, j), name)
    ensures r == Returns(false) ==> forall j :: i <= j < Width(v) && Searched(v, j) ==> !Reaches(Slot(v, j), name)
    ensures NullFree(v) ==> r.Returns?
    decreases v, 0, Width(v) - i
  {
    if i >= Width(v) then Returns(false)
    else if Searched(v, i) then
      match CheckIfHas(Slot(v, i), name)
      case Throws => Throws
      case Returns(true) => Returns(true)
      case Returns(false) => ScanChildren(v, i + 1, name)
    else ScanChildren(v, i + 1, name)
  }

  /** `name` is found at the top level of `v` with a value that is not a function. */
  predicate TopLevelNonFunction(v: Value, name: string) {
    HasProperty(v, name) && !Get(v, name).Func?
  }

  /** Reference meaning of `checkIfHasAndIsntFunction` succeeding: a
      non-function property at the top level, or the name anywhere below. */
  ghost predicate FoundNonFunction(v: Value, name: string) {
    TopLevelNonFunction(v, name) ||
    exists j :: 0 <= j < Width(v) && Searched(v, j) && Reaches(Slot(v, j), name)
  }

  /** `Validate.checkIfHasAndIsntFunction(instance, name)`: like `CheckIfHas`,
      but a function-valued property is rejected at the top level only; the
      nested search is `CheckIfHas` and accepts functions. */
  function CheckIfHasAndIsntFunction(v: Value, name: string): (r: Eval<bool>)
    ensures v.Obj? || v.Arr? ==> (r.Returns? ==> (r.value <==> FoundNonFunction(v, name)))
    ensures (v.Obj? || v.Arr?) && NullFree(v) ==> r.Returns?
  {
    if v.Obj? || v.Arr? then
      if TopLevelNonFunction(v, name) then Returns(true) else ScanChildren(v, 0, name)
    else CheckIfHas(v, name)
  }
}

=== FILE: paging.dfy ===
/** The page cursor's arithmetic: `Array.prototype.slice`, the page window
    of `updatePaginatedItens` and the page count `Math.ceil(n / pageSize)`. */
module Paging {

  /** A page size the table can use: a positive whole number. */
  type PageSize = n: int | n > 0 witness 1

  /** Where a `slice` bound lands in a sequence of length `len`: a negative
      bound counts back from the end, and every bound is clamped to `[0, len]`. */
  function SliceBound(i: int, len: nat): (b: nat)
    ensures b <= len
  {
    if i < 0 then (if len + i < 0 then 0 else len + i) else if i > len then len else i
  }

  /** `s.slice(start, end)`. */
  function JsSlice<T>(s: seq<T>, start: int, end: int): (r: seq<T>)
    ensures 0 <= start <= end <= |s| ==> r == s[start..end]
    ensures 0 <= end <= start ==> r == []
    ensures 0 <= start <= |s| <= end ==> r == s[start..]
    ensures |s| <= start ==> r == []
  {
    var b := SliceBound(start, |s|);
    var e := SliceBound(end, |s|);
    if e <= b then [] else s[b..e]
  }

  /** `Math.ceil(a / b)` for a count `a` and a page size `b`: the fewest
      pages of `b` entries that hold `a` entries. */
  function CeilDiv(a: nat, b: PageSize): (r: nat)
    ensures r * b >= a
    ensures (r - 1) * b < a
  {
    var q := a / b;
    if a % b == 0 then q else q + 1
  }

  /** Index of the first entry on page `page` (pages count from 1). */
  function Offset(page: int, pageSize: PageSize): int {
    (page - 1) * pageSize
  }

  /** `s.slice(o, o + size)` for a non-negative offset: the entries whose
      index lies in `[o, o + size)`, in order. */
  function Window<T>(s: seq<T>, o: nat, size: PageSize): (r: seq<T>)
    ensures |r| <= size
    ensures |r| == 0 || o + |r| <= |s|
    ensures forall k :: 0 <= k < |r| ==> r[k] == s[o + k]
    ensures forall i :: o <= i < |s| && i < o + size ==> i - o < |r| && r[i - o] == s[i]
    ensures |r| == 0 <==> |s| <= o
  {
    JsSlice(s, o, o + size)
  }

  /** The entries `updatePaginatedItens` shows on page `page`:
      `s.slice(offset, offset + pageSize)`. For a page from 1 on, these are
      the entries whose index lies in the page's window, in order. */
  function PageSlice<T>(s: seq<T>, page: int, pageSize: PageSize): (r: seq<T>)
    ensures page >= 1 ==> Offset(page, pageSize) >= 0 && r == Window(s, Offset(page, pageSize), pageSize)
  {
    var o := Offset(page, pageSize);
    if page >= 1 then
      OffsetNonNegative(page, pageSize);
      Window(s, o, pageSize)
    else JsSlice(s, o, o + pageSize)
  }

  lemma OffsetNonNegative(page: int, pageSize: PageSize)
    requires page >= 1
    ensures Offset(page, pageSize) >= 0
  {
    MulMono(0, page - 1, pageSize);
  }

  /** Pages past the page count are empty and pages up to it are not. */
  lemma PageEmptyIffPastCount<T>(s: seq<T>, page: int, pageSize: PageSize)
    requires page >= 1
    ensures |PageSlice(s, page, pageSize)| == 0 <==> page > CeilDiv(|s|, pageSize)
  {
    var n := CeilDiv(|s|, pageSize);
    if page > n {
      MulMono(n, page - 1, pageSize);
    } else {
      MulMono(page, n, pageSize);
    }
  }

  lemma MulMono(a: int, b: int, c: PageSize)
    requires a <= b
    ensures a * c <= b * c
  {
  }

  /** Every entry sits on exactly the page `i / pageSize + 1`, which is
      between 1 and the page count, at position `i % pageSize`. */
  lemma RecordOnItsPage<T>(s: seq<T>, pageSize: PageSize, i: nat)
    requires i < |s|
    ensures 1 <= i / pageSize + 1 <= CeilDiv(|s|, pageSize)
    ensures i % pageSize < |PageSlice(s, i / pageSize + 1, pageSize)|
    ensures PageSlice(s, i / pageSize + 1, pageSize)[i % pageSize] == s[i]
  {
    var p := i / pageSize + 1;
    assert Offset(p, pageSize) == i - i % pageSize;
    var n := CeilDiv(|s|, pageSize);
    if p > n {
      MulMono(n, p - 1, pageSize);
    }
  }
}

=== FILE: property_mapping.dfy ===
/** How one record property becomes one table column. The source's class
    has a read-only property name and fluent setters that mutate and return
    `this`; here each setter returns the updated value, which is what the
    chained calls observe. The datatype's fields are the getters. */
module PropertyMappings {

  datatype PropertyMapping = PropertyMapping(
    propertyName: string,
    columnName: string,
    isIgnored: bool,
    isPrimaryKey: bool,
    isExpandableContent: bool,
    compositionPropertyName: string)
  {
    /** Sets the column's display name. */
    function NamedAs(columnName: string): (r: PropertyMapping)
      ensures r.columnName == columnName
      ensures r.(columnName := this.columnName) == this
    {
      this.(columnName := columnName)
    }

    /** Sets the sub-property shown when the value is an object. */
    function WithCompositionProperty(compositionPropertyName: string): (r: PropertyMapping)
      ensures r.compositionPropertyName == compositionPropertyName
      ensures r.(compositionPropertyName := this.compositionPropertyName) == this
    {
      this.(compositionPropertyName := compositionPropertyName)
    }

    function BeingPrimaryKey(isPrimaryKey: bool := true): (r: PropertyMapping)
      ensures r.isPrimaryKey == isPrimaryKey
      ensures r.(isPrimaryKey := this.isPrimaryKey) == this
    {
      this.(isPrimaryKey := isPrimaryKey)
    }

    function BeingIgnored(isIgnored: bool := true): (r: PropertyMapping)
      ensures r.isIgnored == isIgnored
      ensures r.(isIgnored := this.isIgnored) == this
    {
      this.(isIgnored := isIgnored)
    }

    function BeingExpandableContent(isExpandableContent: bool := true): (r: PropertyMapping)
      ensures r.isExpandableContent == isExpandableContent
      ensures r.(isExpandableContent := this.isExpandableContent) == this
    {
      this.(isExpandableContent := isExpandableContent)
    }
  }

  /** `new PropertyMapping(propertyName, isIgnored)`. */
  function NewMapping(propertyName: string, isIgnored: bool := false): (m: PropertyMapping)
    ensures m.propertyName == propertyName && m.columnName == propertyName
    ensures m.isIgnored == isIgnored
    ensures !m.isPrimaryKey && !m.isExpandableContent
    ensures m.compositionPropertyName == ""
  {
    PropertyMapping(propertyName, propertyName, isIgnored, false, false, "")
  }

  /** No chain of setters changes the property name a mapping was built for. */
  lemma {:induction false} SettersKeepPropertyName(m: PropertyMapping, c: string, d: string, a: bool, b: bool, e: bool)
    ensures m.NamedAs(c).WithCompositionProperty(d).BeingPrimaryKey(a).BeingIgnored(b)
             .BeingExpandableContent(e).propertyName == m.propertyName
  {
  }

  /** Applying a setter twice with the same argument is applying it once. */
  lemma SettersIdempotent(m: PropertyMapping, c: string, a: bool)
    ensures m.NamedAs(c).NamedAs(c) == m.NamedAs(c)
    ensures m.WithCompositionProperty(c).WithCompositionProperty(c) == m.WithCompositionProperty(c)
    ensures m.BeingPrimaryKey(a).BeingPrimaryKey(a) == m.BeingPrimaryKey(a)
    ensures m.BeingIgnored(a).BeingIgnored(a) == m.BeingIgnored(a)
    ensures m.BeingExpandableContent(a).BeingExpandableContent(a) == m.BeingExpandableContent(a)
  {
  }

  /** Setters on different fields commute. */
  lemma SettersCommute(m: PropertyMapping, c: string, d: string, a: bool, b: bool)
    ensures m.NamedAs(c).WithCompositionProperty(d) == m.WithCompositionProperty(d).NamedAs(c)
    ensures m.BeingPrimaryKey(a).BeingIgnored(b) == m.BeingIgnored(b).BeingPrimaryKey(a)
    ensures m.BeingPrimaryKey(a).BeingExpandableContent(b) == m.BeingExpandableContent(b).BeingPrimaryKey(a)
    ensures m.BeingIgnored(a).BeingExpandableContent(b) == m.BeingExpandableContent(b).BeingIgnored(a)
    ensures m.NamedAs(c).BeingPrimaryKey(a) == m.BeingPrimaryKey(a).NamedAs(c)
    ensures m.NamedAs(c).BeingIgnored(a) == m.BeingIgnored(a).NamedAs(c)
    ensures m.NamedAs(c).BeingExpandableContent(a) == m.BeingExpandableContent(a).NamedAs(c)
    ensures m.WithCompositionProperty(d).BeingPrimaryKey(a) == m.BeingPrimaryKey(a).WithCompositionProperty(d)
    ensures m.WithCompositionProperty(d).BeingIgnored(a) == m.BeingIgnored(a).WithCompositionProperty(d)
    ensures m.WithCompositionProperty(d).BeingExpandableContent(a) == m.BeingExpandableContent(a).WithCompositionProperty(d)
  {
  }

  /** The property names of a list of mappings, in order. */
  function Names(ms: seq<PropertyMapping>): (ns: seq<string>)
    ensures |ns| == |ms|
    ensures forall i :: 0 <= i < |ms| ==> ns[i] == ms[i].propertyName
  {
    if |ms| == 0 then [] else [ms[0].propertyName] + Names(ms[1..])
  }

  /** At most one mapping of a working set is the primary key. */
  predicate AtMostOnePrimaryKey(ms: seq<PropertyMapping>) {
    forall i, j :: 0 <= i < j < |ms| && ms[i].isPrimaryKey ==> !ms[j].isPrimaryKey
  }

  /** At most one mapping of a working set is the expandable content. */
  predicate AtMostOneExpandable(ms: seq<PropertyMapping>) {
    forall i, j :: 0 <= i < j < |ms| && ms[i].isExpandableContent ==> !ms[j].isExpandableContent
  }
}

=== FILE: seqs.dfy ===
/** Facts about sequences shared by the validators and the pipeline. */
module Seqs {

  /** The elements of `s`, as a set (what `new Set(s)` holds). */
  function Elements<T>(s: seq<T>): set<T> {
    set x | x in s
  }

  /** No value occurs twice in `s`. */
  predicate Distinct<T(==)>(s: seq<T>) {
    forall i, j :: 0 <= i < j < |s| ==> s[i] != s[j]
  }

  /** Putting a new value in front of a sequence without repeats gives one. */
  lemma DistinctCons<T>(x: T, s: seq<T>)
    requires Distinct(s) && x !in s
    ensures Distinct([x] + s)
  {
    var r := [x] + s;
    forall a, b | 0 <= a < b < |r| ensures r[a] != r[b] {
      if a == 0 { assert r[b] == s[b - 1]; } else { assert r[a] == s[a - 1] && r[b] == s[b - 1]; }
    }
  }

  /** A set built from a sequence has as many members as the sequence has
      entries exactly when the entries are pairwise different. */
  lemma {:induction false} DistinctIffFullSet<T>(s: seq<T>)
    ensures |Elements(s)| <= |s|
    ensures |Elements(s)| == |s| <==> Distinct(s)
  {
    if |s| == 0 {
      assert Elements(s) == {};
    } else {
      var p := s[..|s| - 1];
      var x := s[|s| - 1];
      DistinctIffFullSet(p);
      assert s == p + [x];
      assert Elements(s) == Elements(p) + {x};
      if x in p {
        var k :| 0 <= k < |p| && p[k] == x;
        assert s[k] == s[|s| - 1];
        assert Elements(s) == Elements(p);
      } else {
        assert |Elements(s)| == |Elements(p)| + 1;
        if Distinct(p) {
          forall i, j | 0 <= i < j < |s| ensures s[i] != s[j] {
            if j == |s| - 1 { assert s[i] == p[i]; } else { assert s[i] == p[i] && s[j] == p[j]; }
          }
        } else {
          var i, j :| 0 <= i < j < |p| && p[i] == p[j];
          assert s[i] == s[j];
        }
      }
    }
  }

  /** `a` is `b` with some entries removed, the rest kept in order. */
  predicate IsSubsequence<T(==)>(a: seq<T>, b: seq<T>)
    decreases |b|
  {
    if |a| == 0 then true
    else if |b| == 0 then false
    else if a[0] == b[0] then IsSubsequence(a[1..], b[1..])
    else IsSubsequence(a, b[1..])
  }

  /** Dropping the first entry of a subsequence leaves a subsequence. */
  lemma {:induction false} SubsequenceTail<T>(a: seq<T>, b: seq<T>)
    requires |a| > 0 && IsSubsequence(a, b)
    ensures IsSubsequence(a[1..], b)
    decreases |b|, 1
  {
    if |a| == 1 {
      assert a[1..] == [];
    } else if a[0] == b[0] {
      SubsequenceTail(a[1..], b[1..]);
      SubsequenceSkip(a[1..][1..], b[1..], b[0]);
      assert a[1..][1..] == a[2..];
    } else {
      SubsequenceTail(a, b[1..]);
      SubsequenceSkip(a[1..], b[1..], b[0]);
    }
  }

  /** A subsequence of `b` is also one of `[x] + b`. */
  lemma {:induction false} SubsequenceSkip<T>(a: seq<T>, b: seq<T>, x: T)
    requires IsSubsequence(a, b)
    ensures IsSubsequence(a, [x] + b)
    decreases |b|, 2
  {
    assert ([x] + b)[1..] == b;
    if |a| > 0 && a[0] == x {
      SubsequenceTail(a, b);
    }
  }

  /** Keeping or dropping the first entry preserves being a subsequence. */
  lemma SubsequenceCons<T>(a: seq<T>, b: seq<T>, x: T)
    requires IsSubsequence(a, b)
    ensures IsSubsequence([x] + a, [x] + b)
    ensures IsSubsequence(a, [x] + b)
  {
    assert ([x] + a)[1..] == a;
    assert ([x] + b)[1..] == b;
    SubsequenceSkip(a, b, x);
  }

  /** Every sequence is a subsequence of itself. */
  lemma {:induction false} SubsequenceRefl<T>(s: seq<T>)
    ensures IsSubsequence(s, s)
  {
    if |s| > 0 {
      SubsequenceRefl(s[1..]);
    }
  }
}

=== FILE: table.dfy ===
/** The table component's state and its operations: `ngOnInit` (validate
    the inputs, build the column list, set up the first page), `filterData`
    and the page cursor (`nextPage`, `previousPage`, `updatePaginatedItens`). */
module DataTable {
  import opened JsValues
  import opened PropertyMappings
  import opened ValidationResults
  import opened Validate
  import opened Columns
  import opened Filtering
  import opened Paging
  import opened Seqs
  import opened ObjectSearch

  /** The component's inputs and the state its operations maintain. */
  datatype Table = Table(
    dataClazz: Option<Clazz>,
    dataSource: seq<Value>,
    mappingParams: seq<PropertyMapping>,
    defaultCompositionProperty: string,
    primaryKeyProperty: string,
    expandableProperty: string,
    pageSize: PageSize,
    mapping: seq<PropertyMapping>,
    filterInput: string,
    filteredData: seq<Value>,
    paginatedData: seq<Value>,
    page: int,
    maxPage: int)

  /** A component as Angular creates it: the given inputs (defaults as
      declared), page 1 of 1, and nothing mapped, filtered or shown yet. */
  function NewTable(dataClazz: Option<Clazz> := None, dataSource: seq<Value> := [],
                    mappingParams: seq<PropertyMapping> := [], defaultCompositionProperty: string := "",
                    primaryKeyProperty: string := "", expandableProperty: string := "",
                    pageSize: PageSize := 20): (t: Table)
    ensures t.dataClazz == dataClazz && t.dataSource == dataSource && t.mappingParams == mappingParams
    ensures t.defaultCompositionProperty == defaultCompositionProperty
    ensures t.primaryKeyProperty == primaryKeyProperty && t.expandableProperty == expandableProperty
    ensures t.pageSize == pageSize
    ensures t.mapping == [] && t.filterInput == "" && t.filteredData == [] && t.paginatedData == []
    ensures t.page == 1 && t.maxPage == 1
  {
    Table(dataClazz, dataSource, mappingParams, defaultCompositionProperty, primaryKeyProperty,
          expandableProperty, pageSize, [], "", [], [], 1, 1)
  }

  /** `ms.find(p)`: the first mapping satisfying `p`, if any. */
  function FirstMapping(ms: seq<PropertyMapping>, p: PropertyMapping -> bool): (r: Option<PropertyMapping>)
    ensures r.None? <==> forall j :: 0 <= j < |ms| ==> !p(ms[j])
    ensures r.Some? ==> p(r.value) && r.value in ms
    ensures forall j :: 0 <= j < |ms| && p(ms[j]) && (forall i :: 0 <= i < j ==> !p(ms[i])) ==> r == Some(ms[j])
  {
    if |ms| == 0 then None
    else if p(ms[0]) then Some(ms[0])
    else
      var tail := ms[1..];
      var r := FirstMapping(tail, p);
      assert forall j :: 0 < j < |ms| ==> ms[j] == tail[j - 1];
      assert forall j :: 0 <= j < |ms| && p(ms[j]) && (forall i :: 0 <= i < j ==> !p(ms[i])) ==> r == Some(ms[j]) by {
        forall j | 0 <= j < |ms| && p(ms[j]) && (forall i :: 0 <= i < j ==> !p(ms[i])) ensures r == Some(ms[j]) {
          assert j > 0 && tail[j - 1] == ms[j];
          forall i | 0 <= i < j - 1 ensures !p(tail[i]) { assert tail[i] == ms[i + 1]; }
        }
      }
      r
  }

  function IsPrimaryKeyMapping(m: PropertyMapping): bool { m.isPrimaryKey }
  function IsExpandableMapping(m: PropertyMapping): bool { m.isExpandableContent }

  /** The name of the first mapping satisfying `p`, or "" (`find(p)?.propertyName ?? ""`). */
  function FirstNameOr(ms: seq<PropertyMapping>, p: PropertyMapping -> bool): (r: string)
    ensures (forall j :: 0 <= j < |ms| ==> !p(ms[j])) ==> r == ""
    ensures forall j :: 0 <= j < |ms| && p(ms[j]) && (forall i :: 0 <= i < j ==> !p(ms[i])) ==> r == ms[j].propertyName
  {
    match FirstMapping(ms, p)
    case Some(m) => m.propertyName
    case None => ""
  }

  /** `mapping.filter(m => !m.isIgnored)`: the mappings that are not
      ignored, in their order. */
  function NotIgnored(ms: seq<PropertyMapping>): seq<PropertyMapping> {
    if |ms| == 0 then []
    else if ms[0].isIgnored then NotIgnored(ms[1..])
    else [ms[0]] + NotIgnored(ms[1..])
  }

  /** Each mapping that is not ignored is kept as often as it occurs, and
      each ignored one is dropped entirely. */
  lemma {:induction false} NotIgnoredCounts(ms: seq<PropertyMapping>)
    ensures forall m :: multiset(NotIgnored(ms))[m] == (if m.isIgnored then 0 else multiset(ms)[m])
  {
    if |ms| > 0 {
      var rest := NotIgnored(ms[1..]);
      NotIgnoredCounts(ms[1..]);
      assert ms == [ms[0]] + ms[1..];
      assert multiset(ms) == multiset{ms[0]} + multiset(ms[1..]);
      if !ms[0].isIgnored {
        assert multiset([ms[0]] + rest) == multiset{ms[0]} + multiset(rest);
      }
    }
  }

  /** A mapping is kept exactly when it is in the list and not ignored. */
  lemma NotIgnoredMembers(ms: seq<PropertyMapping>)
    ensures forall m :: m in NotIgnored(ms) ==> m in ms && !m.isIgnored
    ensures forall m :: m in ms && !m.isIgnored ==> m in NotIgnored(ms)
  {
    var r := NotIgnored(ms);
    NotIgnoredCounts(ms);
    forall m ensures m in r <==> m in ms && !m.isIgnored {
      assert m in r <==> multiset(r)[m] > 0;
      assert m in ms <==> multiset(ms)[m] > 0;
    }
  }

  /** The mappings that are not ignored keep their order. */
  lemma {:induction false} NotIgnoredKeepsOrder(ms: seq<PropertyMapping>)
    ensures IsSubsequence(NotIgnored(ms), ms)
  {
    if |ms| > 0 {
      var tail := ms[1..];
      NotIgnoredKeepsOrder(tail);
      var rest := NotIgnored(tail);
      assert ms == [ms[0]] + tail;
      SubsequenceCons(rest, tail, ms[0]);
      if ms[0].isIgnored {
        assert NotIgnored(ms) == rest;
      } else {
        assert NotIgnored(ms) == [ms[0]] + rest;
      }
    }
  }

  /** Dropping ignored mappings keeps "at most one key" and "at most one
      expandable". */
  lemma NotIgnoredAtMostOne(ms: seq<PropertyMapping>)
    ensures AtMostOnePrimaryKey(ms) ==> AtMostOnePrimaryKey(NotIgnored(ms))
    ensures AtMostOneExpandable(ms) ==> AtMostOneExpandable(NotIgnored(ms))
  {
    NotIgnoredOneKey(ms);
    NotIgnoredOneExpandable(ms);
  }

  lemma {:induction false} NotIgnoredOneKey(ms: seq<PropertyMapping>)
    ensures AtMostOnePrimaryKey(ms) ==> AtMostOnePrimaryKey(NotIgnored(ms))
  {
    if |ms| > 0 && AtMostOnePrimaryKey(ms) {
      var tail := ms[1..];
      assert AtMostOnePrimaryKey(tail) by {
        forall i, j | 0 <= i < j < |tail| && tail[i].isPrimaryKey ensures !tail[j].isPrimaryKey {
          assert tail[i] == ms[i + 1] && tail[j] == ms[j + 1];
        }
      }
      NotIgnoredOneKey(tail);
      NotIgnoredMembers(tail);
      var rest := NotIgnored(tail);
      if !ms[0].isIgnored {
        assert NotIgnored(ms) == [ms[0]] + rest;
        NoLaterPrimaryKey(ms, rest);
      } else {
        assert NotIgnored(ms) == rest;
      }
    }
  }

  lemma {:induction false} NotIgnoredOneExpandable(ms: seq<PropertyMapping>)
    ensures AtMostOneExpandable(ms) ==> AtMostOneExpandable(NotIgnored(ms))
  {
    if |ms| > 0 && AtMostOneExpandable(ms) {
      var tail := ms[1..];
      assert AtMostOneExpandable(tail) by {
        forall i, j | 0 <= i < j < |tail| && tail[i].isExpandableContent ensures !tail[j].isExpandableContent {
          assert tail[i] == ms[i + 1] && tail[j] == ms[j + 1];
        }
      }
      NotIgnoredOneExpandable(tail);
      NotIgnoredMembers(tail);
      var rest := NotIgnored(tail);
      if !ms[0].isIgnored {
        assert NotIgnored(ms) == [ms[0]] + rest;
        NoLaterExpandable(ms, rest);
      } else {
        assert NotIgnored(ms) == rest;
      }
    }
  }

  lemma NoLaterPrimaryKey(ms: seq<PropertyMapping>, rest: seq<PropertyMapping>)
    requires |ms| > 0 && AtMostOnePrimaryKey(ms) && AtMostOnePrimaryKey(rest)
    requires forall m :: m in rest ==> m in ms[1..]
    ensures AtMostOnePrimaryKey([ms[0]] + rest)
  {
    var r := [ms[0]] + rest;
    forall i, j | 0 <= i < j < |r| && r[i].isPrimaryKey ensures !r[j].isPrimaryKey {
      if i == 0 {
        assert r[j] in ms[1..];
        var k :| 0 <= k < |ms[1..]| && ms[1..][k] == r[j];
        assert ms[k + 1] == r[j];
      } else {
        assert r[i] == rest[i - 1] && r[j] == rest[j - 1];
      }
    }
  }

  lemma NoLaterExpandable(ms: seq<PropertyMapping>, rest: seq<PropertyMapping>)
    requires |ms| > 0 && AtMostOneExpandable(ms) && AtMostOneExpandable(rest)
    requires forall m :: m in rest ==> m in ms[1..]
    ensures AtMostOneExpandable([ms[0]] + rest)
  {
    var r := [ms[0]] + rest;
    forall i, j | 0 <= i < j < |r| && r[i].isExpandableContent ensures !r[j].isExpandableContent {
      if i == 0 {
        assert r[j] in ms[1..];
        var k :| 0 <= k < |ms[1..]| && ms[1..][k] == r[j];
        assert ms[k + 1] == r[j];
      } else {
        assert r[i] == rest[i - 1] && r[j] == rest[j - 1];
      }
    }
  }

  // ---------------------------------------------------------------- paging

  /** `updatePaginatedItens`: show the filtered records in the current
      page's window; nothing else changes. */
  function UpdatePaginatedItens(t: Table): (r: Table)
    ensures r == t.(paginatedData := r.paginatedData)
    ensures t.page >= 1 ==> r.paginatedData == Window(t.filteredData, Offset(t.page, t.pageSize), t.pageSize)
  {
    t.(paginatedData := PageSlice(t.filteredData, t.page, t.pageSize))
  }

  /** `nextPage`: below the last page, move one page on and refresh the
      shown records; on or past it, do nothing. */
  function NextPage(t: Table): (r: Table)
    ensures t.page < t.maxPage ==> r == UpdatePaginatedItens(t.(page := t.page + 1))
    ensures t.page >= t.maxPage ==> r == t
  {
    if t.page < t.maxPage then UpdatePaginatedItens(t.(page := t.page + 1)) else t
  }

  /** `previousPage`: above page 1, move one page back and refresh the
      shown records; on page 1, do nothing. */
  function PreviousPage(t: Table): (r: Table)
    ensures t.page > 1 ==> r == UpdatePaginatedItens(t.(page := t.page - 1))
    ensures t.page <= 1 ==> r == t
  {
    if t.page > 1 then UpdatePaginatedItens(t.(page := t.page - 1)) else t
  }

  /** The cursor is on a page that exists: from 1 to the page count, where
      page 1 is also where an empty table sits. */
  predicate CursorOk(t: Table) {
    1 <= t.page && (t.page <= t.maxPage || t.page == 1)
  }

  /** The shown records are the current page of the filtered records. */
  predicate ShowsPage(t: Table) {
    t.paginatedData == PageSlice(t.filteredData, t.page, t.pageSize)
  }

  /** Moving either way keeps the cursor on an existing page, shows that
      page, and leaves the page count alone. */
  lemma NavigationKeepsCursor(t: Table)
    requires CursorOk(t)
    ensures CursorOk(NextPage(t)) && CursorOk(PreviousPage(t))
    ensures NextPage(t).maxPage == t.maxPage && PreviousPage(t).maxPage == t.maxPage
    ensures ShowsPage(t) ==> ShowsPage(NextPage(t)) && ShowsPage(PreviousPage(t))
  {
  }

  /** Going back undoes going forward, and going forward undoes going back. */
  lemma NavigationRoundTrip(t: Table)
    requires ShowsPage(t)
    ensures t.page < t.maxPage && t.page >= 1 ==> PreviousPage(NextPage(t)) == t
    ensures 1 < t.page <= t.maxPage ==> NextPage(PreviousPage(t)) == t
  {
  }

  /** Every record of the filtered data can be reached: paging to page
      `i / pageSize + 1` shows record `i` at position `i % pageSize`, and,
      when the page count was taken from the filtered data, that page is
      not past the last one. */
  lemma EveryRecordHasAPage(t: Table, i: nat)
    requires i < |t.filteredData|
    requires t.maxPage == CeilDiv(|t.filteredData|, t.pageSize)
    ensures 1 <= i / t.pageSize + 1 <= t.maxPage
    ensures var shown := UpdatePaginatedItens(t.(page := i / t.pageSize + 1)).paginatedData;
      i % t.pageSize < |shown| && shown[i % t.pageSize] == t.filteredData[i]
  {
    RecordOnItsPage(t.filteredData, t.pageSize, i);
  }

  // ------------------------------------------------------------- filtering

  /** `filterData`: with a filter text, keep the records some current
      column matches, in order; without one, show the whole data source.
      Only `filteredData` changes: the shown page and the page count are
      not recomputed. A throwing property search throws out of the filter. */
  function FilterData(t: Table): (r: Eval<Table>)
    ensures t.filterInput == "" ==> r == Returns(t.(filteredData := t.dataSource))
    ensures r.Returns? ==> r.value == t.(filteredData := r.value.filteredData)
    ensures r.Returns? ==> IsSubsequence(r.value.filteredData, t.dataSource)
    ensures t.filterInput != "" && r.Returns? ==> r.value.filteredData == Keep(t.dataSource, t.mapping, t.filterInput)
    ensures t.filterInput != "" && r.Returns? ==>
      forall x :: x in r.value.filteredData <==> x in t.dataSource && Matches(x, t.mapping, t.filterInput)
    ensures t.filterInput != "" ==> (r.Throws? <==>
      exists i :: 0 <= i < |t.dataSource| && AnyColumnMatches(t.dataSource[i], t.mapping, t.filterInput, 0).Throws?)
  {
    if t.filterInput != "" then
      KeepExactly(t.dataSource, t.mapping, t.filterInput);
      KeepIsSubsequence(t.dataSource, t.mapping, t.filterInput);
      var kept :- FilterRecords(t.dataSource, t.mapping, t.filterInput);
      Returns(t.(filteredData := kept))
    else
      SubsequenceRefl(t.dataSource);
      Returns(t.(filteredData := t.dataSource))
  }

  /** Filtering keeps the cursor where it was, so it stays on an existing page. */
  lemma FilterKeepsCursor(t: Table)
    requires CursorOk(t) && FilterData(t).Returns?
    ensures CursorOk(FilterData(t).value)
  {
  }

  // ---------------------------------------------------------- initialisation

  /** What `ngOnInit` leaves behind: the last validation result it computed
      (an error is what it logs before returning early) and the component. */
  datatype InitOutcome = InitOutcome(result: ValidationResult, table: Table)

  /** The tail of `ngOnInit` once every check has passed: show the whole
      data source and its first page, default the key and expandable
      property names from the full column list (ignored columns included),
      drop the ignored columns and count the pages. The cursor stays put. */
  function SetUpView(t: Table): (r: Table)
    ensures r.filteredData == t.dataSource
    ensures r.paginatedData == Window(t.dataSource, 0, t.pageSize)
    ensures r.maxPage == CeilDiv(|t.dataSource|, t.pageSize)
    ensures r.mapping == NotIgnored(t.mapping)
    ensures t.primaryKeyProperty != "" ==> r.primaryKeyProperty == t.primaryKeyProperty
    ensures t.primaryKeyProperty == "" ==> r.primaryKeyProperty == FirstNameOr(t.mapping, IsPrimaryKeyMapping)
    ensures t.expandableProperty != "" ==> r.expandableProperty == t.expandableProperty
    ensures t.expandableProperty == "" ==> r.expandableProperty == FirstNameOr(t.mapping, IsExpandableMapping)
    ensures r == t.(filteredData := r.filteredData, paginatedData := r.paginatedData, maxPage := r.maxPage,
                    mapping := r.mapping, primaryKeyProperty := r.primaryKeyProperty,
                    expandableProperty := r.expandableProperty)
  {
    var paginated := JsSlice(t.dataSource, 0, t.pageSize);
    assert paginated == Window(t.dataSource, 0, t.pageSize);
    t.(filteredData := t.dataSource,
       paginatedData := paginated,
       primaryKeyProperty := if t.primaryKeyProperty == "" then FirstNameOr(t.mapping, IsPrimaryKeyMapping)
                             else t.primaryKeyProperty,
       expandableProperty := if t.expandableProperty == "" then FirstNameOr(t.mapping, IsExpandableMapping)
                             else t.expandableProperty,
       mapping := NotIgnored(t.mapping),
       maxPage := CeilDiv(|t.dataSource|, t.pageSize))
  }

  /** The column list `ngOnInit` builds: the explicit mappings, then the
      columns `mapClass` synthesises for the remaining properties. */
  function FullMapping(t: Table, instance: Value): seq<PropertyMapping> {
    t.mappingParams + MapClass(instance, Names(t.mappingParams), t.defaultCompositionProperty)
  }

  /** The column list starts with the explicit mappings; every later column
      is implicit: no flags, and named after no explicit mapping. */
  lemma FullMappingShape(t: Table, instance: Value)
    ensures var ms := FullMapping(t, instance);
      && |ms| >= |t.mappingParams| && ms[..|t.mappingParams|] == t.mappingParams
      && forall j :: |t.mappingParams| <= j < |ms| ==>
           !ms[j].isIgnored && !ms[j].isPrimaryKey && !ms[j].isExpandableContent &&
           ms[j].propertyName !in Names(t.mappingParams)
  {
    var names := Names(t.mappingParams);
    MapClassFlagless(instance, names, t.defaultCompositionProperty);
    AppendShape(t.mappingParams, MapClass(instance, names, t.defaultCompositionProperty), names);
  }

  /** Explicit mappings followed by flagless columns named after none of
      `names`: the list starts with the explicit ones, the rest are flagless. */
  lemma AppendShape(params: seq<PropertyMapping>, implicit: seq<PropertyMapping>, names: seq<string>)
    requires forall k :: 0 <= k < |implicit| ==>
      !implicit[k].isIgnored && !implicit[k].isPrimaryKey && !implicit[k].isExpandableContent &&
      implicit[k].propertyName !in names
    ensures var ms := params + implicit;
      && |ms| >= |params| && ms[..|params|] == params
      && forall j :: |params| <= j < |ms| ==>
           !ms[j].isIgnored && !ms[j].isPrimaryKey && !ms[j].isExpandableContent && ms[j].propertyName !in names
  {
    var ms := params + implicit;
    assert ms[..|params|] == params;
    forall j | |params| <= j < |ms|
      ensures !ms[j].isIgnored && !ms[j].isPrimaryKey && !ms[j].isExpandableContent && ms[j].propertyName !in names
    {
      assert ms[j] == implicit[j - |params|];
    }
  }

  /** Some explicit mapping is flagged as the primary key. */
  predicate DeclaresPrimaryKey(params: seq<PropertyMapping>) {
    exists j :: 0 <= j < |params| && params[j].isPrimaryKey
  }

  /** Some explicit mapping is flagged as the expandable content. */
  predicate DeclaresExpandable(params: seq<PropertyMapping>) {
    exists j :: 0 <= j < |params| && params[j].isExpandableContent
  }

  /** The columns a successful `ngOnInit` leaves in `u`, for the fresh
      instance `instance`: the explicit mappings that are not ignored, in
      order, followed by every column `mapClass` synthesises, in order;
      hence no ignored column, flags only on explicit mappings, and at most
      one key and one expandable column, both in the explicit mappings and
      in what is left. */
  ghost predicate ColumnsSetUp(t: Table, instance: Value, u: Table) {
    && u.mapping == NotIgnored(t.mappingParams) + MapClass(instance, Names(t.mappingParams), t.defaultCompositionProperty)
    && (forall j :: 0 <= j < |t.mappingParams| ==> !t.mappingParams[j].isIgnored ==> t.mappingParams[j] in u.mapping)
    && (forall m :: m in u.mapping ==> !m.isIgnored)
    && (forall m :: m in u.mapping ==> m in t.mappingParams || !(m.isPrimaryKey || m.isExpandableContent))
    && AtMostOnePrimaryKey(u.mapping) && AtMostOneExpandable(u.mapping)
    && AtMostOnePrimaryKey(t.mappingParams) && AtMostOneExpandable(t.mappingParams)
  }

  /** The key and expandable names a successful `ngOnInit` leaves in `u`:
      a declared key column becomes `primaryKeyProperty` and has no
      duplicate values (an input `primaryKeyProperty` with no declared key
      column is kept, unchecked); a given `expandableProperty` is kept, and
      an empty one is replaced by the declared expandable column's name, or
      stays empty. */
  ghost predicate KeysSetUp(t: Table, u: Table) {
    && (forall j :: 0 <= j < |t.mappingParams| && t.mappingParams[j].isPrimaryKey ==>
          u.primaryKeyProperty == t.mappingParams[j].propertyName &&
          !HasDuplicateKey(t.dataSource, t.mappingParams[j].propertyName))
    && (!DeclaresPrimaryKey(t.mappingParams) ==> u.primaryKeyProperty == t.primaryKeyProperty)
    && (t.expandableProperty != "" ==> u.expandableProperty == t.expandableProperty)
    && (forall j :: 0 <= j < |t.mappingParams| && t.mappingParams[j].isExpandableContent && t.expandableProperty == "" ==>
          u.expandableProperty == t.mappingParams[j].propertyName)
    && (!DeclaresExpandable(t.mappingParams) && t.expandableProperty == "" ==> u.expandableProperty == "")
  }

  /** The view a successful `ngOnInit` leaves in `u`: the first page of the
      whole data source, the page count as the ceiling of records over page
      size, and the inputs and the cursor as they were. */
  predicate ViewSetUp(t: Table, u: Table) {
    && u.filteredData == t.dataSource
    && u.paginatedData == Window(t.dataSource, 0, t.pageSize)
    && u.maxPage == CeilDiv(|t.dataSource|, t.pageSize)
    && u == t.(mapping := u.mapping, primaryKeyProperty := u.primaryKeyProperty,
               expandableProperty := u.expandableProperty, filteredData := u.filteredData,
               paginatedData := u.paginatedData, maxPage := u.maxPage)
  }

  /** What a successful `ngOnInit` promises about the component `u` it
      leaves, starting from `t`. */
  ghost predicate Initialised(t: Table, instance: Value, u: Table) {
    ColumnsSetUp(t, instance, u) && KeysSetUp(t, u) && ViewSetUp(t, u)
  }

  /** Some explicit key mapping names a property whose values repeat
      across the records. */
  ghost predicate DuplicateKeyValues(t: Table) {
    exists j :: 0 <= j < |t.mappingParams| && t.mappingParams[j].isPrimaryKey &&
      HasDuplicateKey(t.dataSource, t.mappingParams[j].propertyName)
  }

  /** The condition under which the column checks throw: a property search
      throws, or the mappings pass, a key column is declared, and some
      record is null or undefined. */
  ghost predicate ColumnChecksThrow(t: Table, c: Clazz) {
    var checked := ValidatePropertyMappings(Instantiate(c), t.mappingParams);
    checked.Throws? ||
    (checked == Returns(Success()) && DeclaresPrimaryKey(t.mappingParams) &&
     exists k :: 0 <= k < |t.dataSource| && IsNullish(t.dataSource[k]))
  }

  /** With at most one key and one expandable explicit mapping, the column
      list keeps that: the implicit columns carry no flags. */
  lemma FullMappingAtMostOne(t: Table, instance: Value)
    requires AtMostOnePrimaryKey(t.mappingParams) && AtMostOneExpandable(t.mappingParams)
    ensures AtMostOnePrimaryKey(FullMapping(t, instance)) && AtMostOneExpandable(FullMapping(t, instance))
  {
    FullMappingShape(t, instance);
    var params := t.mappingParams;
    var full := FullMapping(t, instance);
    var n := |params|;
    forall i, j | 0 <= i < j < |full| && full[i].isPrimaryKey ensures !full[j].isPrimaryKey {
      assert full[..n][i] == full[i];
      if j < n { assert full[..n][j] == full[j]; }
    }
    forall i, j | 0 <= i < j < |full| && full[i].isExpandableContent ensures !full[j].isExpandableContent {
      assert full[..n][i] == full[i];
      if j < n { assert full[..n][j] == full[j]; }
    }
  }

  /** After a clean validation the column list holds at most one key and
      one expandable column, and `find` returns the explicit one. */
  lemma FullMappingFlags(t: Table, instance: Value)
    requires AtMostOnePrimaryKey(t.mappingParams) && AtMostOneExpandable(t.mappingParams)
    ensures AtMostOnePrimaryKey(FullMapping(t, instance)) && AtMostOneExpandable(FullMapping(t, instance))
    ensures forall j :: 0 <= j < |t.mappingParams| && t.mappingParams[j].isPrimaryKey ==>
      FirstMapping(FullMapping(t, instance), IsPrimaryKeyMapping) == Some(t.mappingParams[j])
    ensures forall j :: 0 <= j < |t.mappingParams| && t.mappingParams[j].isExpandableContent ==>
      FirstMapping(FullMapping(t, instance), IsExpandableMapping) == Some(t.mappingParams[j])
    ensures !DeclaresPrimaryKey(t.mappingParams) ==> FirstMapping(FullMapping(t, instance), IsPrimaryKeyMapping).None?
    ensures !DeclaresExpandable(t.mappingParams) ==> FirstMapping(FullMapping(t, instance), IsExpandableMapping).None?
  {
    FullMappingAtMostOne(t, instance);
    KeyFoundIffDeclared(t, instance);
    FindsExplicitKey(t, instance);
    FindsExplicitExpandable(t, instance);
  }

  /** `find` returns the explicit key mapping, the only one there is. */
  lemma FindsExplicitKey(t: Table, instance: Value)
    ensures AtMostOnePrimaryKey(t.mappingParams) ==>
      forall j :: 0 <= j < |t.mappingParams| && t.mappingParams[j].isPrimaryKey ==>
        FirstMapping(FullMapping(t, instance), IsPrimaryKeyMapping) == Some(t.mappingParams[j])
  {
    var params := t.mappingParams;
    var full := FullMapping(t, instance);
    FullMappingShape(t, instance);
    forall j | 0 <= j < |params| && params[j].isPrimaryKey && AtMostOnePrimaryKey(params)
      ensures FirstMapping(full, IsPrimaryKeyMapping) == Some(params[j])
    {
      assert full[..|params|][j] == full[j];
      assert IsPrimaryKeyMapping(full[j]);
      forall i | 0 <= i < j ensures !IsPrimaryKeyMapping(full[i]) {
        assert full[..|params|][i] == full[i];
      }
    }
  }

  /** `find` returns the explicit expandable mapping, the only one there is. */
  lemma FindsExplicitExpandable(t: Table, instance: Value)
    requires AtMostOneExpandable(t.mappingParams)
    ensures forall j :: 0 <= j < |t.mappingParams| && t.mappingParams[j].isExpandableContent ==>
      FirstMapping(FullMapping(t, instance), IsExpandableMapping) == Some(t.mappingParams[j])
    ensures !DeclaresExpandable(t.mappingParams) ==> FirstMapping(FullMapping(t, instance), IsExpandableMapping).None?
  {
    var params := t.mappingParams;
    var full := FullMapping(t, instance);
    var n := |params|;
    FullMappingShape(t, instance);
    forall j | 0 <= j < n && params[j].isExpandableContent
      ensures FirstMapping(full, IsExpandableMapping) == Some(params[j])
    {
      assert full[..n][j] == full[j];
      assert IsExpandableMapping(full[j]);
      forall i | 0 <= i < j ensures !IsExpandableMapping(full[i]) {
        assert full[..n][i] == full[i];
      }
    }
    if FirstMapping(full, IsExpandableMapping).Some? {
      var j :| 0 <= j < |full| && IsExpandableMapping(full[j]);
      assert j < n;
      assert full[..n][j] == full[j];
    }
  }

  /** After a clean validation, the columns left once ignored ones are
      dropped: every non-ignored explicit mapping, no ignored column, flags
      only on explicit mappings, at most one key and one expandable column. */
  lemma ShownColumns(t: Table, instance: Value)
    requires AtMostOnePrimaryKey(t.mappingParams) && AtMostOneExpandable(t.mappingParams)
    ensures var shown := NotIgnored(FullMapping(t, instance));
      && shown == NotIgnored(t.mappingParams) + MapClass(instance, Names(t.mappingParams), t.defaultCompositionProperty)
      && (forall j :: 0 <= j < |t.mappingParams| ==> !t.mappingParams[j].isIgnored ==> t.mappingParams[j] in shown)
      && (forall m :: m in shown ==> !m.isIgnored)
      && (forall m :: m in shown ==> m in t.mappingParams || !(m.isPrimaryKey || m.isExpandableContent))
      && AtMostOnePrimaryKey(shown) && AtMostOneExpandable(shown)
  {
    FullMappingAtMostOne(t, instance);
    NotIgnoredAtMostOne(FullMapping(t, instance));
    ShownColumnsInOrder(t, instance);
    var explicit := NotIgnored(t.mappingParams);
    var implicit := MapClass(instance, Names(t.mappingParams), t.defaultCompositionProperty);
    NotIgnoredMembers(t.mappingParams);
    MapClassFlagless(instance, Names(t.mappingParams), t.defaultCompositionProperty);
    ConcatMembers(explicit, implicit);
  }

  /** Membership in a concatenation. */
  lemma ConcatMembers(a: seq<PropertyMapping>, b: seq<PropertyMapping>)
    ensures forall m :: m in a + b <==> m in a || m in b
  {
  }

  /** The shown columns are the explicit mappings that are not ignored,
      in order, followed by every synthesised column, in order. */
  lemma ShownColumnsInOrder(t: Table, instance: Value)
    ensures NotIgnored(FullMapping(t, instance))
      == NotIgnored(t.mappingParams) + MapClass(instance, Names(t.mappingParams), t.defaultCompositionProperty)
  {
    var implicit := MapClass(instance, Names(t.mappingParams), t.defaultCompositionProperty);
    MapClassFlagless(instance, Names(t.mappingParams), t.defaultCompositionProperty);
    NotIgnoredAppend(t.mappingParams, implicit);
    NotIgnoredNone(implicit);
  }

  /** Dropping ignored mappings distributes over concatenation. */
  lemma {:induction false} NotIgnoredAppend(a: seq<PropertyMapping>, b: seq<PropertyMapping>)
    ensures NotIgnored(a + b) == NotIgnored(a) + NotIgnored(b)
  {
    if |a| == 0 {
      assert a + b == b;
    } else {
      var ab := a + b;
      assert ab[0] == a[0];
      assert ab[1..] == a[1..] + b;
      NotIgnoredAppend(a[1..], b);
      if a[0].isIgnored {
        assert NotIgnored(ab) == NotIgnored(a[1..] + b);
        assert NotIgnored(a) == NotIgnored(a[1..]);
      } else {
        var x, y := NotIgnored(a[1..]), NotIgnored(b);
        assert NotIgnored(ab) == [a[0]] + (x + y);
        assert NotIgnored(a) == [a[0]] + x;
        assert [a[0]] + (x + y) == ([a[0]] + x) + y;
      }
    }
  }

  /** A list with no ignored mapping is kept whole. */
  lemma {:induction false} NotIgnoredNone(ms: seq<PropertyMapping>)
    requires forall k :: 0 <= k < |ms| ==> !ms[k].isIgnored
    ensures NotIgnored(ms) == ms
  {
    if |ms| > 0 {
      NotIgnoredNone(ms[1..]);
      assert ms == [ms[0]] + ms[1..];
    }
  }

  /** After a clean validation and, when a key column exists, a passed
      uniqueness check, the rest of `ngOnInit` sets the component up. */
  lemma ViewAfterCleanInit(t: Table, instance: Value, key: Option<PropertyMapping>)
    requires key == FirstMapping(FullMapping(t, instance), IsPrimaryKeyMapping)
    requires key.Some? ==> !HasDuplicateKey(t.dataSource, key.value.propertyName)
    ensures (AtMostOnePrimaryKey(t.mappingParams) && AtMostOneExpandable(t.mappingParams)) ==>
      Initialised(t, instance, SetUpView(t.(mapping := FullMapping(t, instance),
        primaryKeyProperty := if key.Some? then key.value.propertyName else t.primaryKeyProperty)))
  {
    var u := SetUpView(t.(mapping := FullMapping(t, instance),
      primaryKeyProperty := if key.Some? then key.value.propertyName else t.primaryKeyProperty));
    if AtMostOnePrimaryKey(t.mappingParams) && AtMostOneExpandable(t.mappingParams) {
      ShownColumns(t, instance);
      assert ColumnsSetUp(t, instance, u);
      KeysAfterCleanInit(t, instance, key);
      assert ViewSetUp(t, u);
    }
  }

  lemma KeysAfterCleanInit(t: Table, instance: Value, key: Option<PropertyMapping>)
    requires AtMostOnePrimaryKey(t.mappingParams) && AtMostOneExpandable(t.mappingParams)
    requires key == FirstMapping(FullMapping(t, instance), IsPrimaryKeyMapping)
    requires key.Some? ==> !HasDuplicateKey(t.dataSource, key.value.propertyName)
    ensures KeysSetUp(t, SetUpView(t.(mapping := FullMapping(t, instance),
      primaryKeyProperty := if key.Some? then key.value.propertyName else t.primaryKeyProperty)))
  {
    FullMappingFlags(t, instance);
  }

  /** `find` meets a key column in the column list exactly when an
      explicit mapping declares one: implicit columns carry no flags. */
  lemma KeyFoundIffDeclared(t: Table, instance: Value)
    ensures FirstMapping(FullMapping(t, instance), IsPrimaryKeyMapping).Some? <==> DeclaresPrimaryKey(t.mappingParams)
  {
    FullMappingShape(t, instance);
    var full := FullMapping(t, instance);
    var n := |t.mappingParams|;
    if DeclaresPrimaryKey(t.mappingParams) {
      var j :| 0 <= j < n && t.mappingParams[j].isPrimaryKey;
      assert full[..n][j] == full[j];
      assert IsPrimaryKeyMapping(full[j]);
    }
    if FirstMapping(full, IsPrimaryKeyMapping).Some? {
      var j :| 0 <= j < |full| && IsPrimaryKeyMapping(full[j]);
      assert j < n;
      assert full[..n][j] == full[j];
    }
  }

  /** `ngOnInit` once the explicit mappings passed: store the column list,
      and when some column is the primary key, check its uniqueness. A
      uniqueness failure comes after the column list is stored, so it is
      the one error that leaves `mapping` changed. */
  function StoreColumns(t: Table, instance: Value): (r: Eval<InitOutcome>)
    ensures r.Throws? <==>
      DeclaresPrimaryKey(t.mappingParams) && exists k :: 0 <= k < |t.dataSource| && IsNullish(t.dataSource[k])
    ensures r.Returns? && r.value.result.error ==>
      r.value.result == Failure(MultipleElementsWithSameKey) && r.value.table == t.(mapping := FullMapping(t, instance))
    ensures AtMostOnePrimaryKey(t.mappingParams) ==>
      r.Returns? ==> (r.value.result.error <==> DuplicateKeyValues(t))
    ensures (AtMostOnePrimaryKey(t.mappingParams) && AtMostOneExpandable(t.mappingParams)) ==>
      r.Returns? && !r.value.result.error ==> r.value.result == Success() && Initialised(t, instance, r.value.table)
  {
    var withColumns := t.(mapping := FullMapping(t, instance));
    var key := FirstMapping(withColumns.mapping, IsPrimaryKeyMapping);
    KeyFoundIffDeclared(t, instance);
    FindsExplicitKey(t, instance);
    if key.None? then
      ViewAfterCleanInit(t, instance, key);
      Returns(InitOutcome(Success(), SetUpView(withColumns)))
    else
      var unique :- ValidateUniquenessOfKeyProperty(t.dataSource, Some(key.value.propertyName));
      if unique.error then Returns(InitOutcome(unique, withColumns))
      else
        ViewAfterCleanInit(t, instance, key);
        Returns(InitOutcome(unique, SetUpView(withColumns.(primaryKeyProperty := key.value.propertyName))))
  }

  /** `ngOnInit` after the class and data checks: instantiate the class,
      check the explicit mappings, then store the columns. */
  function InitColumns(t: Table, c: Clazz): (r: Eval<InitOutcome>)
    ensures r.Throws? <==> ColumnChecksThrow(t, c)
    ensures var checked := ValidatePropertyMappings(Instantiate(c), t.mappingParams);
      checked.Returns? && checked.value.error ==> r == Returns(InitOutcome(checked.value, t))
    ensures ValidatePropertyMappings(Instantiate(c), t.mappingParams) == Returns(Success()) && r.Returns? ==>
      (r.value.result.error <==> DuplicateKeyValues(t))
    ensures ValidatePropertyMappings(Instantiate(c), t.mappingParams) == Returns(Success()) && r.Returns? && r.value.result.error ==>
      r.value.result == Failure(MultipleElementsWithSameKey) && r.value.table == t.(mapping := FullMapping(t, Instantiate(c)))
    ensures r.Returns? && r.value.result.error ==> r.value.table == t.(mapping := r.value.table.mapping)
    ensures r.Returns? && r.value.result.error && !FailsWith(r.value.result, MultipleElementsWithSameKey) ==>
      r.value.table == t
    ensures r.Returns? && !r.value.result.error ==>
      r.value.result == Success() && Initialised(t, Instantiate(c), r.value.table)
  {
    var instance := Instantiate(c);
    var checked :- ValidatePropertyMappings(instance, t.mappingParams);
    if checked.error then Returns(InitOutcome(checked, t))
    else
      CleanMappingsAreWellFormed(Verdicts(instance, t.mappingParams), t.mappingParams);
      StoreColumns(t, instance)
  }

  /** `ngOnInit`: the class check, then the data check, then the column
      checks; the first failing check's result is what is reported, and
      the component is left as it was. */
  function NgOnInit(t: Table): (r: Eval<InitOutcome>)
    ensures t.dataClazz.None? ==> r == Returns(InitOutcome(Failure(NoClass), t))
    ensures t.dataClazz.Some? && ValidateDataProvided(t.dataSource, t.dataClazz).error ==>
      r == Returns(InitOutcome(ValidateDataProvided(t.dataSource, t.dataClazz), t))
    ensures r.Throws? <==>
      t.dataClazz.Some? && !ValidateDataProvided(t.dataSource, t.dataClazz).error && ColumnChecksThrow(t, t.dataClazz.value)
    ensures t.dataClazz.Some? && !ValidateDataProvided(t.dataSource, t.dataClazz).error ==>
      var checked := ValidatePropertyMappings(Instantiate(t.dataClazz.value), t.mappingParams);
      && (checked.Returns? && checked.value.error ==> r == Returns(InitOutcome(checked.value, t)))
      && (checked == Returns(Success()) && r.Returns? ==> (r.value.result.error <==> DuplicateKeyValues(t)))
      && (checked == Returns(Success()) && r.Returns? && r.value.result.error ==>
            r.value.result == Failure(MultipleElementsWithSameKey) &&
            r.value.table == t.(mapping := FullMapping(t, Instantiate(t.dataClazz.value))))
    ensures r.Returns? && r.value.result.error ==> r.value.table == t.(mapping := r.value.table.mapping)
    ensures r.Returns? && r.value.result.error && !FailsWith(r.value.result, MultipleElementsWithSameKey) ==>
      r.value.table == t
    ensures r.Returns? && !r.value.result.error ==>
      r.value.result == Success() && t.dataClazz.Some? && !ValidateDataProvided(t.dataSource, t.dataClazz).error &&
      Initialised(t, Instantiate(t.dataClazz.value), r.value.table)
  {
    var clazzCheck := ValidateClazz(t.dataClazz);
    if clazzCheck.error then Returns(InitOutcome(clazzCheck, t))
    else
      var dataCheck := ValidateDataProvided(t.dataSource, t.dataClazz);
      if dataCheck.error then Returns(InitOutcome(dataCheck, t))
      else InitColumns(t, t.dataClazz.value)
  }

  /** `ngOnInit` returned without throwing and reported no error. */
  predicate InitSucceeds(t: Table) {
    NgOnInit(t).Returns? && !NgOnInit(t).value.result.error
  }

  /** A successful `ngOnInit` accepted only objects of the class, unless
      a null or undefined record slipped past the data check. */
  lemma InitAcceptsOnlyInstances(t: Table)
    requires forall k :: 0 <= k < |t.dataSource| ==> !IsNullish(t.dataSource[k])
    ensures InitSucceeds(t) ==> t.dataClazz.Some? && forall k :: 0 <= k < |t.dataSource| ==>
      t.dataSource[k].Obj? && InstanceOf(t.dataSource[k], t.dataClazz.value)
  {
    if InitSucceeds(t) {
      DataProvidedWithoutNullish(t.dataSource, t.dataClazz);
    }
  }

  /** A successful `ngOnInit` accepted only explicit mappings that name a
      property of a fresh instance of the class, found by
      `checkIfHasAndIsntFunction`. */
  lemma InitAcceptsOnlyKnownProperties(t: Table)
    ensures InitSucceeds(t) ==> t.dataClazz.Some? && forall j :: 0 <= j < |t.mappingParams| ==>
      CheckIfHasAndIsntFunction(Instantiate(t.dataClazz.value), t.mappingParams[j].propertyName) == Returns(true)
  {
    if InitSucceeds(t) {
      ColumnsNameKnownProperties(t, t.dataClazz.value);
    }
  }

  /** The column checks succeed only when every explicit mapping names a
      property of the fresh instance. */
  lemma ColumnsNameKnownProperties(t: Table, c: Clazz)
    ensures InitColumns(t, c).Returns? && !InitColumns(t, c).value.result.error ==>
      forall j :: 0 <= j < |t.mappingParams| ==>
        CheckIfHasAndIsntFunction(Instantiate(c), t.mappingParams[j].propertyName) == Returns(true)
  {
    var instance := Instantiate(c);
    var checked := ValidatePropertyMappings(instance, t.mappingParams);
    if checked.Returns? && !checked.value.error {
      CleanMappingsAreWellFormed(Verdicts(instance, t.mappingParams), t.mappingParams);
    }
  }

  /** Started on page 1, a successful `ngOnInit` leaves the cursor on an
      existing page, showing that page. */
  lemma InitShowsFirstPage(t: Table)
    requires t.page == 1
    ensures InitSucceeds(t) ==> CursorOk(NgOnInit(t).value.table) && ShowsPage(NgOnInit(t).value.table)
  {
  }

  /** An empty data source gives a page count of 0 (no floor at 1), so
      `nextPage` never moves. */
  lemma EmptySourceHasNoPages(t: Table)
    requires t.dataSource == [] && t.page == 1
    ensures InitSucceeds(t) ==> NgOnInit(t).value.table.maxPage == 0
    ensures InitSucceeds(t) ==> NextPage(NgOnInit(t).value.table) == NgOnInit(t).value.table
  {
  }
}

=== FILE: validate.dfy ===
/** The static rule checks of `Validate` (the component carries copies of
    the same checks; they are modelled once, here). */
module Validate {
  import opened JsValues
  import opened PropertyMappings
  import opened ValidationResults
  import opened ObjectSearch
  import opened Seqs

  /** A record class: its name (what `instanceof` looks for on a prototype
      chain) and the fields a fresh instance is given by its constructor. */
  datatype Clazz = Clazz(name: string, defaults: seq<Field>)

  /** `new clazz()`: an object whose prototype chain names the class. */
  function Instantiate(c: Clazz): (v: Value)
    ensures v.Obj? && InstanceOf(v, c)
  {
    Obj([c.name], c.defaults)
  }

  /** `v instanceof c`. */
  predicate InstanceOf(v: Value, c: Clazz) {
    v.Obj? && c.name in v.chain
  }

  // ---------------------------------------------------------------- clazz

  /** `validateClazz`: an error exactly when no class is given. */
  function ValidateClazz(clazz: Option<Clazz>): (r: ValidationResult)
    ensures r.error <==> clazz.None?
    ensures r.error ==> r == Failure(NoClass)
    ensures !r.error ==> r == Success()
  {
    if clazz.Some? then Success() else Failure(NoClass)
  }

  /** `checkInstance`: a missing class (not a function) admits no instance. */
  predicate CheckInstance(v: Value, clazz: Option<Clazz>): (r: bool)
    ensures r ==> !ValidateClazz(clazz).error
    ensures clazz.Some? && v == Instantiate(clazz.value) ==> r
  {
    clazz.Some? && InstanceOf(v, clazz.value)
  }

  // ----------------------------------------------------------------- data

  /** `data.find(p)`: the first element satisfying `p`, or undefined when
      none does. A first match that is itself undefined is indistinguishable
      from no match. */
  function FindFirst(data: seq<Value>, p: Value -> bool): (r: Value)
    ensures (forall k :: 0 <= k < |data| ==> !p(data[k])) ==> r == Undefined
    ensures forall k :: 0 <= k < |data| && p(data[k]) && (forall i :: 0 <= i < k ==> !p(data[i])) ==> r == data[k]
  {
    if |data| == 0 then Undefined
    else if p(data[0]) then data[0]
    else FindFirst(data[1..], p)
  }

  /** The first element of `data` satisfying `p` exists and is not null or
      undefined: what `data.find(p) != undefined` tests. */
  ghost predicate FirstMatchIsDefined(data: seq<Value>, p: Value -> bool) {
    exists k :: 0 <= k < |data| && p(data[k]) && !IsNullish(data[k]) &&
      forall i :: 0 <= i < k ==> !p(data[i])
  }

  lemma {:induction false} FindFirstDefined(data: seq<Value>, p: Value -> bool)
    ensures !IsNullish(FindFirst(data, p)) <==> FirstMatchIsDefined(data, p)
  {
    if |data| == 0 {
    } else if p(data[0]) {
      if !IsNullish(data[0]) {
        assert 0 <= 0 < |data| && p(data[0]) && !IsNullish(data[0]);
      }
    } else {
      var tail := data[1..];
      FindFirstDefined(tail, p);
      if FirstMatchIsDefined(tail, p) {
        var k :| 0 <= k < |tail| && p(tail[k]) && !IsNullish(tail[k]) && forall i :: 0 <= i < k ==> !p(tail[i]);
        assert forall i :: 0 <= i < k + 1 ==> !p(data[i]) by {
          forall i | 0 <= i < k + 1 ensures !p(data[i]) {
            if i > 0 { assert data[i] == tail[i - 1]; }
          }
        }
        assert p(data[k + 1]) && !IsNullish(data[k + 1]);
      }
      if FirstMatchIsDefined(data, p) {
        var k :| 0 <= k < |data| && p(data[k]) && !IsNullish(data[k]) && forall i :: 0 <= i < k ==> !p(data[i]);
        assert k > 0;
        assert forall i :: 0 <= i < k - 1 ==> !p(tail[i]) by {
          forall i | 0 <= i < k - 1 ensures !p(tail[i]) {
            assert tail[i] == data[i + 1];
          }
        }
        assert p(tail[k - 1]) && !IsNullish(tail[k - 1]);
      }
    }
  }

  /** The test of the first `find`: `typeof obj != "object"`. */
  function IsNotObject(v: Value): bool { !IsObjectTyped(v) }

  /** The test of the second `find`: `!checkInstance(obj, clazz)`. */
  function NotInstanceOf(clazz: Option<Clazz>): Value -> bool {
    v => !CheckInstance(v, clazz)
  }

  /** `validateDataProvided`: the "not an object" check comes first, then
      the "not an instance" check. Each uses `find(…) != undefined`, so an
      offending element is missed when the first offender is null or
      undefined; see `NullishRecordPassesValidation`. */
  function ValidateDataProvided(data: seq<Value>, clazz: Option<Clazz>): (r: ValidationResult)
    ensures r.error ==> r == Failure(DataFromSourceIsntObject) || r == Failure(ObjIsNotInstanceOfClazz)
    ensures !r.error ==> r == Success()
    ensures FailsWith(r, DataFromSourceIsntObject) <==> FirstMatchIsDefined(data, IsNotObject)
    ensures FailsWith(r, ObjIsNotInstanceOfClazz) <==>
      !FirstMatchIsDefined(data, IsNotObject) && FirstMatchIsDefined(data, NotInstanceOf(clazz))
  {
    FindFirstDefined(data, IsNotObject);
    FindFirstDefined(data, NotInstanceOf(clazz));
    if !IsNullish(FindFirst(data, IsNotObject)) then Failure(DataFromSourceIsntObject)
    else if !IsNullish(FindFirst(data, NotInstanceOf(clazz))) then Failure(ObjIsNotInstanceOfClazz)
    else NewResult(false)
  }

  /** Without null or undefined records the quirk disappears: the data is
      accepted exactly when every record is an instance of the class. */
  lemma DataProvidedWithoutNullish(data: seq<Value>, clazz: Option<Clazz>)
    requires forall k :: 0 <= k < |data| ==> !IsNullish(data[k])
    ensures !ValidateDataProvided(data, clazz).error <==>
      forall k :: 0 <= k < |data| ==> data[k].Obj? && CheckInstance(data[k], clazz)
    ensures clazz.None? && |data| > 0 ==> ValidateDataProvided(data, clazz).error
  {
    FirstMatchWithoutNullish(data, IsNotObject);
    FirstMatchWithoutNullish(data, NotInstanceOf(clazz));
    if clazz.None? && |data| > 0 {
      assert NotInstanceOf(clazz)(data[0]);
    }
  }

  lemma {:induction false} FirstMatchWithoutNullish(data: seq<Value>, p: Value -> bool)
    requires forall k :: 0 <= k < |data| ==> !IsNullish(data[k])
    ensures FirstMatchIsDefined(data, p) <==> exists k :: 0 <= k < |data| && p(data[k])
  {
    FindFirstDefined(data, p);
    if exists k :: 0 <= k < |data| && p(data[k]) {
      FindFirstIsMatch(data, p);
    }
  }

  lemma {:induction false} FindFirstIsMatch(data: seq<Value>, p: Value -> bool)
    requires exists k :: 0 <= k < |data| && p(data[k])
    ensures exists k :: 0 <= k < |data| && p(data[k]) && FindFirst(data, p) == data[k]
  {
    if !p(data[0]) {
      var k :| 0 <= k < |data| && p(data[k]);
      assert data[1..][k - 1] == data[k];
      FindFirstIsMatch(data[1..], p);
      var j :| 0 <= j < |data| - 1 && p(data[1..][j]) && FindFirst(data[1..], p) == data[1..][j];
      assert data[j + 1] == data[1..][j];
    }
  }

  /** An undefined record followed by a number passes both checks, because
      the first offender each `find` returns is undefined itself. */
  lemma NullishRecordPassesValidation(c: Clazz)
    ensures !ValidateDataProvided([Undefined, Prim(NumberType, "5")], Some(c)).error
  {
    var data := [Undefined, Prim(NumberType, "5")];
    FindFirstDefined(data, IsNotObject);
    FindFirstDefined(data, NotInstanceOf(Some(c)));
    assert FindFirst(data, IsNotObject) == Undefined;
    assert FindFirst(data, NotInstanceOf(Some(c))) == Undefined;
  }

  // ------------------------------------------------------------ key values

  /** Two different records share the same value for `key`. */
  ghost predicate HasDuplicateKey(data: seq<Value>, key: string) {
    exists i, j :: 0 <= i < j < |data| && Get(data[i], key) == Get(data[j], key)
  }

  /** `validateUniquenessOfKeyProperty`: no key property means success;
      otherwise the records' key values go into a set, and a set smaller
      than the record count means two records share a key. Reading a key of
      a null or undefined record throws. */
  function ValidateUniquenessOfKeyProperty(data: seq<Value>, key: Option<string>): (r: Eval<ValidationResult>)
    ensures key.None? ==> r == Returns(Success())
    ensures key.Some? ==> (r.Throws? <==> exists k :: 0 <= k < |data| && IsNullish(data[k]))
    ensures key.Some? && r.Returns? ==> (r.value.error <==> HasDuplicateKey(data, key.value))
    ensures r.Returns? && r.value.error ==> r.value == Failure(MultipleElementsWithSameKey)
    ensures r.Returns? && !r.value.error ==> r.value == Success()
  {
    if key.None? then Returns(Success())
    else
      match MemberOfEach(data, key.value)
      case Throws => Throws
      case Returns(keys) =>
        DistinctIffFullSet(keys);
        assert HasDuplicateKey(data, key.value) <==> !Distinct(keys) by {
          if !Distinct(keys) {
            var i, j :| 0 <= i < j < |keys| && keys[i] == keys[j];
            assert Get(data[i], key.value) == Get(data[j], key.value);
          }
        }
        if |Elements(keys)| != |data| then Returns(Failure(MultipleElementsWithSameKey))
        else Returns(Success())
  }

  // -------------------------------------------------------------- mappings
  //
  // The rules are stated over `ok`, the verdicts of `checkIfHasAndIsntFunction`
  // for each mapping in order (see `Verdicts`).

  /** `checkIfHasAndIsntFunction`'s verdict on each mapping's property name. */
  function Verdicts(instance: Value, params: seq<PropertyMapping>): (ok: seq<bool>)
    ensures |ok| == |params|
    ensures forall k :: 0 <= k < |params| ==>
      ok[k] == (CheckIfHasAndIsntFunction(instance, params[k].propertyName) == Returns(true))
  {
    seq(|params|, k requires 0 <= k < |params| =>
      CheckIfHasAndIsntFunction(instance, params[k].propertyName) == Returns(true))
  }

  /** Mapping `j` is accepted as a property and flagged as primary key. */
  predicate KeyFlagged(ok: seq<bool>, params: seq<PropertyMapping>, j: nat)
    requires j < |ok| == |params|
  {
    ok[j] && params[j].isPrimaryKey
  }

  /** Mapping `j` is a second primary key: an earlier accepted mapping was one. */
  ghost predicate KeyDuplicate(ok: seq<bool>, params: seq<PropertyMapping>, j: nat)
    requires j < |ok| == |params|
  {
    KeyFlagged(ok, params, j) && exists k :: 0 <= k < j && KeyFlagged(ok, params, k)
  }

  /** Mapping `j` reaches the expandable-content rule and is flagged: it was
      accepted and not rejected as a second primary key. */
  ghost predicate ExpandFlagged(ok: seq<bool>, params: seq<PropertyMapping>, j: nat)
    requires j < |ok| == |params|
  {
    ok[j] && !KeyDuplicate(ok, params, j) && params[j].isExpandableContent
  }

  ghost predicate ExpandDuplicate(ok: seq<bool>, params: seq<PropertyMapping>, j: nat)
    requires j < |ok| == |params|
  {
    ExpandFlagged(ok, params, j) && exists k :: 0 <= k < j && ExpandFlagged(ok, params, k)
  }

  /** Mapping `j` breaks one of the three rules. */
  ghost predicate Offends(ok: seq<bool>, params: seq<PropertyMapping>, j: nat)
    requires j < |ok| == |params|
  {
    !ok[j] || KeyDuplicate(ok, params, j) || ExpandDuplicate(ok, params, j)
  }

  /** Which rule an offending mapping breaks, the first applicable one. */
  ghost function OffenceKind(ok: seq<bool>, params: seq<PropertyMapping>, j: nat): ErrorKind
    requires j < |ok| == |params|
  {
    if !ok[j] then ParamNameIsntValidPropertyForClazz
    else if KeyDuplicate(ok, params, j) then TwoOrMoreParamsWithPrimaryKeyAssigned
    else TwoOrMoreParamsWithExpandAssigned
  }

  /** The variables of the `forEach` in `validatePropertyMappings`. */
  datatype MappingScan = MappingScan(
    result: ValidationResult,
    primaryKey: Option<PropertyMapping>,
    expandKey: Option<PropertyMapping>)

  /** One iteration of the `forEach` once the property check gave `found`;
      a `return` ends the iteration, not the loop. */
  function Step(st: MappingScan, p: PropertyMapping, found: bool): MappingScan {
    if !found then
      st.(result := Failure(ParamNameIsntValidPropertyForClazz, [p.propertyName]))
    else if p.isPrimaryKey && st.primaryKey.Some? then
      st.(result := Failure(TwoOrMoreParamsWithPrimaryKeyAssigned,
                            [p.propertyName, st.primaryKey.value.propertyName]))
    else
      var st1 := if p.isPrimaryKey then st.(primaryKey := Some(p)) else st;
      if p.isExpandableContent && st1.expandKey.Some? then
        st1.(result := Failure(TwoOrMoreParamsWithExpandAssigned,
                               [p.propertyName, st1.expandKey.value.propertyName]))
      else if p.isExpandableContent then st1.(expandKey := Some(p))
      else st1
  }

  /** One iteration only ever overwrites the result with an error, records a
      holder only when none is recorded yet and the mapping passed and is
      flagged, and records nothing for a mapping whose property is missing. */
  lemma StepKeepsHolders(st: MappingScan, p: PropertyMapping, found: bool)
    ensures var r := Step(st, p, found);
      && (r.result == st.result || r.result.error)
      && (r.primaryKey == st.primaryKey || (st.primaryKey.None? && r.primaryKey == Some(p) && found && p.isPrimaryKey))
      && (r.expandKey == st.expandKey || (st.expandKey.None? && r.expandKey == Some(p) && found && p.isExpandableContent))
      && (!found ==> r.result.error && r.primaryKey == st.primaryKey && r.expandKey == st.expandKey)
  {
  }

  /** The `forEach` over the first `n` mappings, given the verdicts. */
  function Fold(ok: seq<bool>, params: seq<PropertyMapping>, n: nat): (r: MappingScan)
    requires n <= |ok| == |params|
    ensures r.primaryKey.Some? ==> r.primaryKey.value.isPrimaryKey && r.primaryKey.value in params[..n]
    ensures r.expandKey.Some? ==> r.expandKey.value.isExpandableContent && r.expandKey.value in params[..n]
  {
    if n == 0 then MappingScan(Success(), None, None)
    else
      assert params[..n] == params[..n - 1] + [params[n - 1]];
      StepKeepsHolders(Fold(ok, params, n - 1), params[n - 1], ok[n - 1]);
      Step(Fold(ok, params, n - 1), params[n - 1], ok[n - 1])
  }

  /** The scan records the first accepted primary key. */
  ghost predicate KeyInv(ok: seq<bool>, params: seq<PropertyMapping>, n: nat, key: Option<PropertyMapping>)
    requires n <= |ok| == |params|
  {
    && (key.None? <==> forall k :: 0 <= k < n ==> !KeyFlagged(ok, params, k))
    && (key.Some? ==> exists h :: 0 <= h < n && KeyFlagged(ok, params, h) && key.value == params[h])
  }

  /** The scan records the first mapping that reached the expand rule flagged. */
  ghost predicate ExpandInv(ok: seq<bool>, params: seq<PropertyMapping>, n: nat, key: Option<PropertyMapping>)
    requires n <= |ok| == |params|
  {
    && (key.None? <==> forall k :: 0 <= k < n ==> !ExpandFlagged(ok, params, k))
    && (key.Some? ==> exists h :: 0 <= h < n && ExpandFlagged(ok, params, h) && key.value == params[h])
  }

  /** The message the scan leaves for offending mapping `j`, given the
      mappings it recorded as primary key and expandable content. */
  ghost function Expected(ok: seq<bool>, params: seq<PropertyMapping>, j: nat, st: MappingScan): ValidationResult
    requires j < |ok| == |params|
  {
    var name := params[j].propertyName;
    if !ok[j] then Failure(ParamNameIsntValidPropertyForClazz, [name])
    else if KeyDuplicate(ok, params, j) then
      Failure(TwoOrMoreParamsWithPrimaryKeyAssigned,
              [name, if st.primaryKey.Some? then st.primaryKey.value.propertyName else ""])
    else
      Failure(TwoOrMoreParamsWithExpandAssigned,
              [name, if st.expandKey.Some? then st.expandKey.value.propertyName else ""])
  }

  /** The scan's result is the message of the LAST offending mapping so far. */
  ghost predicate ResultInv(ok: seq<bool>, params: seq<PropertyMapping>, n: nat, st: MappingScan)
    requires n <= |ok| == |params|
  {
    && ((forall k :: 0 <= k < n ==> !Offends(ok, params, k)) ==> st.result == Success())
    && ((exists k :: 0 <= k < n && Offends(ok, params, k)) ==>
          exists j :: 0 <= j < n && Offends(ok, params, j) &&
            (forall k :: j < k < n ==> !Offends(ok, params, k)) &&
            st.result == Expected(ok, params, j, st))
  }

  lemma {:induction false} FoldKeyInv(ok: seq<bool>, params: seq<PropertyMapping>, n: nat)
    requires n <= |ok| == |params|
    ensures KeyInv(ok, params, n, Fold(ok, params, n).primaryKey)
  {
    if n > 0 {
      FoldKeyInv(ok, params, n - 1);
      var st := Fold(ok, params, n - 1);
      if KeyFlagged(ok, params, n - 1) && st.primaryKey.None? {
        assert Fold(ok, params, n).primaryKey == Some(params[n - 1]);
      } else {
        assert Fold(ok, params, n).primaryKey == st.primaryKey;
      }
    }
  }

  /** Mapping `h` is the first accepted mapping flagged as primary key. */
  ghost predicate FirstKey(ok: seq<bool>, params: seq<PropertyMapping>, h: nat)
    requires h < |ok| == |params|
  {
    KeyFlagged(ok, params, h) && forall i :: 0 <= i < h ==> !KeyFlagged(ok, params, i)
  }

  /** Mapping `h` is the first one to reach the expand rule flagged. */
  ghost predicate FirstExpand(ok: seq<bool>, params: seq<PropertyMapping>, h: nat)
    requires h < |ok| == |params|
  {
    ExpandFlagged(ok, params, h) && forall i :: 0 <= i < h ==> !ExpandFlagged(ok, params, i)
  }

  /** The recorded key holder is the first accepted key mapping. */
  lemma {:induction false} FoldKeyIsFirst(ok: seq<bool>, params: seq<PropertyMapping>, n: nat)
    requires n <= |ok| == |params|
    ensures Fold(ok, params, n).primaryKey.Some? ==>
      exists h :: 0 <= h < n && FirstKey(ok, params, h) && Fold(ok, params, n).primaryKey.value == params[h]
  {
    if n > 0 {
      FoldKeyIsFirst(ok, params, n - 1);
      FoldKeyInv(ok, params, n - 1);
      var st := Fold(ok, params, n - 1);
      if KeyFlagged(ok, params, n - 1) && st.primaryKey.None? {
        assert FirstKey(ok, params, n - 1);
        assert Fold(ok, params, n).primaryKey == Some(params[n - 1]);
      } else {
        assert Fold(ok, params, n).primaryKey == st.primaryKey;
      }
    }
  }

  /** The recorded expandable holder is the first mapping to reach the
      expand rule flagged. */
  lemma {:induction false} FoldExpandIsFirst(ok: seq<bool>, params: seq<PropertyMapping>, n: nat)
    requires n <= |ok| == |params|
    ensures Fold(ok, params, n).expandKey.Some? ==>
      exists h :: 0 <= h < n && FirstExpand(ok, params, h) && Fold(ok, params, n).expandKey.value == params[h]
  {
    if n > 0 {
      FoldExpandIsFirst(ok, params, n - 1);
      FoldExpandInv(ok, params, n - 1);
      KeyDuplicateIffHeld(ok, params, n - 1);
      var st := Fold(ok, params, n - 1);
      if ExpandFlagged(ok, params, n - 1) && st.expandKey.None? {
        assert FirstExpand(ok, params, n - 1);
        assert Fold(ok, params, n).expandKey == Some(params[n - 1]);
      } else {
        assert Fold(ok, params, n).expandKey == st.expandKey;
      }
    }
  }

  /** The last offender of the whole loop and the message it left. */
  lemma LastOffender(ok: seq<bool>, params: seq<PropertyMapping>) returns (j: nat)
    requires |ok| == |params|
    requires Fold(ok, params, |params|).result.error
    ensures j < |params| && Offends(ok, params, j)
    ensures Fold(ok, params, |params|).result == Expected(ok, params, j, Fold(ok, params, |params|))
  {
    FoldResultInv(ok, params, |params|);
    j :| 0 <= j < |params| && Offends(ok, params, j) &&
      (forall k :: j < k < |params| ==> !Offends(ok, params, k)) &&
      Fold(ok, params, |params|).result == Expected(ok, params, j, Fold(ok, params, |params|));
  }

  /** A reported second key names, after the offender, the first accepted
      key mapping. */
  lemma DuplicateKeyNamesHolder(ok: seq<bool>, params: seq<PropertyMapping>)
    requires |ok| == |params|
    ensures var res := Fold(ok, params, |params|).result;
      res.error && res.errorMessage.Message? && res.errorMessage.kind == TwoOrMoreParamsWithPrimaryKeyAssigned ==>
        exists h :: 0 <= h < |params| && FirstKey(ok, params, h) &&
          |res.errorMessage.names| == 2 && res.errorMessage.names[1] == params[h].propertyName
  {
    var res := Fold(ok, params, |params|).result;
    if res.error && res.errorMessage.Message? && res.errorMessage.kind == TwoOrMoreParamsWithPrimaryKeyAssigned {
      var j := LastOffender(ok, params);
      assert ok[j] && KeyDuplicate(ok, params, j);
      FoldKeyInv(ok, params, |params|);
      FoldKeyIsFirst(ok, params, |params|);
    }
  }

  /** A reported second expandable mapping names, after the offender, the
      first mapping that reached the expand rule flagged. */
  lemma DuplicateExpandNamesHolder(ok: seq<bool>, params: seq<PropertyMapping>)
    requires |ok| == |params|
    ensures var res := Fold(ok, params, |params|).result;
      res.error && res.errorMessage.Message? && res.errorMessage.kind == TwoOrMoreParamsWithExpandAssigned ==>
        exists h :: 0 <= h < |params| && FirstExpand(ok, params, h) &&
          |res.errorMessage.names| == 2 && res.errorMessage.names[1] == params[h].propertyName
  {
    var res := Fold(ok, params, |params|).result;
    if res.error && res.errorMessage.Message? && res.errorMessage.kind == TwoOrMoreParamsWithExpandAssigned {
      var j := LastOffender(ok, params);
      assert ok[j] && !KeyDuplicate(ok, params, j) && ExpandDuplicate(ok, params, j);
      FoldExpandInv(ok, params, |params|);
      FoldExpandIsFirst(ok, params, |params|);
    }
  }

  /** Mapping `n` is a second primary key exactly when the scan already holds one. */
  lemma KeyDuplicateIffHeld(ok: seq<bool>, params: seq<PropertyMapping>, n: nat)
    requires n < |ok| == |params|
    ensures KeyDuplicate(ok, params, n) <==> KeyFlagged(ok, params, n) && Fold(ok, params, n).primaryKey.Some?
  {
    FoldKeyInv(ok, params, n);
  }

  lemma {:induction false} FoldExpandInv(ok: seq<bool>, params: seq<PropertyMapping>, n: nat)
    requires n <= |ok| == |params|
    ensures ExpandInv(ok, params, n, Fold(ok, params, n).expandKey)
  {
    if n > 0 {
      FoldExpandInv(ok, params, n - 1);
      KeyDuplicateIffHeld(ok, params, n - 1);
      var st := Fold(ok, params, n - 1);
      if ExpandFlagged(ok, params, n - 1) && st.expandKey.None? {
        assert Fold(ok, params, n).expandKey == Some(params[n - 1]);
      } else {
        assert Fold(ok, params, n).expandKey == st.expandKey;
      }
    }
  }

  /** Mapping `n` is a second expandable mapping exactly when it reaches
      the expand rule flagged and the scan already holds one. */
  lemma ExpandDuplicateIffHeld(ok: seq<bool>, params: seq<PropertyMapping>, n: nat)
    requires n < |ok| == |params|
    ensures ExpandDuplicate(ok, params, n) <==> ExpandFlagged(ok, params, n) && Fold(ok, params, n).expandKey.Some?
  {
    FoldExpandInv(ok, params, n);
  }

  /** An offending mapping overwrites the result with its own message. */
  lemma ResultAfterOffence(ok: seq<bool>, params: seq<PropertyMapping>, m: nat)
    requires m < |ok| == |params|
    requires Offends(ok, params, m)
    ensures Fold(ok, params, m + 1).result == Expected(ok, params, m, Fold(ok, params, m + 1))
  {
    KeyDuplicateIffHeld(ok, params, m);
    ExpandDuplicateIffHeld(ok, params, m);
  }

  /** A mapping that breaks no rule leaves the result alone. */
  lemma ResultAfterClean(ok: seq<bool>, params: seq<PropertyMapping>, m: nat)
    requires m < |ok| == |params|
    requires !Offends(ok, params, m)
    ensures Fold(ok, params, m + 1).result == Fold(ok, params, m).result
  {
    KeyDuplicateIffHeld(ok, params, m);
    ExpandDuplicateIffHeld(ok, params, m);
  }

  /** Once recorded, a holder is never replaced, so an earlier message stays accurate. */
  lemma ExpectedStable(ok: seq<bool>, params: seq<PropertyMapping>, j: nat, m: nat)
    requires j < m < |ok| == |params|
    requires Offends(ok, params, j)
    ensures Expected(ok, params, j, Fold(ok, params, m + 1)) == Expected(ok, params, j, Fold(ok, params, m))
  {
    var st := Fold(ok, params, m);
    if ok[j] && KeyDuplicate(ok, params, j) {
      FoldKeyInv(ok, params, m);
      assert KeyFlagged(ok, params, j);
      assert st.primaryKey.Some?;
    } else if ok[j] && ExpandDuplicate(ok, params, j) {
      FoldExpandInv(ok, params, m);
      assert ExpandFlagged(ok, params, j);
      assert st.expandKey.Some?;
      assert Fold(ok, params, m + 1).expandKey == st.expandKey;
    }
  }

  /** After an offending mapping, it is the last offender so far. */
  lemma ResultInvAfterOffence(ok: seq<bool>, params: seq<PropertyMapping>, m: nat)
    requires m < |ok| == |params|
    requires Offends(ok, params, m)
    ensures ResultInv(ok, params, m + 1, Fold(ok, params, m + 1))
  {
    ResultAfterOffence(ok, params, m);
    var st' := Fold(ok, params, m + 1);
    assert 0 <= m < m + 1 && Offends(ok, params, m) && st'.result == Expected(ok, params, m, st');
  }

  /** A clean mapping keeps the last offender and its message. */
  lemma ResultInvAfterClean(ok: seq<bool>, params: seq<PropertyMapping>, m: nat)
    requires m < |ok| == |params|
    requires !Offends(ok, params, m)
    requires ResultInv(ok, params, m, Fold(ok, params, m))
    ensures ResultInv(ok, params, m + 1, Fold(ok, params, m + 1))
  {
    ResultAfterClean(ok, params, m);
    var st := Fold(ok, params, m);
    if exists k :: 0 <= k < m + 1 && Offends(ok, params, k) {
      var k0 :| 0 <= k0 < m + 1 && Offends(ok, params, k0);
      assert k0 < m;
      var j :| 0 <= j < m && Offends(ok, params, j) &&
        (forall k :: j < k < m ==> !Offends(ok, params, k)) &&
        st.result == Expected(ok, params, j, st);
      LastOffenderAfterClean(ok, params, j, m);
    }
  }

  /** The last offender before a clean mapping `m` is still the last one
      after it, with the same message. */
  lemma LastOffenderAfterClean(ok: seq<bool>, params: seq<PropertyMapping>, j: nat, m: nat)
    requires j < m < |ok| == |params|
    requires !Offends(ok, params, m) && Offends(ok, params, j)
    requires forall k :: j < k < m ==> !Offends(ok, params, k)
    requires Fold(ok, params, m + 1).result == Fold(ok, params, m).result
    requires Fold(ok, params, m).result == Expected(ok, params, j, Fold(ok, params, m))
    ensures forall k :: j < k < m + 1 ==> !Offends(ok, params, k)
    ensures Fold(ok, params, m + 1).result == Expected(ok, params, j, Fold(ok, params, m + 1))
  {
    ExpectedStable(ok, params, j, m);
    NoOffenderAfter(ok, params, j, m);
  }

  /** A clean mapping `m` extends a run of clean mappings after `j`. */
  lemma NoOffenderAfter(ok: seq<bool>, params: seq<PropertyMapping>, j: nat, m: nat)
    requires j < m < |ok| == |params|
    requires forall k :: j < k < m ==> !Offends(ok, params, k)
    requires !Offends(ok, params, m)
    ensures forall k :: j < k < m + 1 ==> !Offends(ok, params, k)
  {
  }

  lemma {:induction false} FoldResultInv(ok: seq<bool>, params: seq<PropertyMapping>, n: nat)
    requires n <= |ok| == |params|
    ensures ResultInv(ok, params, n, Fold(ok, params, n))
  {
    if n > 0 {
      var m := n - 1;
      FoldResultInv(ok, params, m);
      if Offends(ok, params, m) {
        ResultInvAfterOffence(ok, params, m);
      } else {
        ResultInvAfterClean(ok, params, m);
      }
      assert m + 1 == n;
    }
  }

  /** The `forEach` run over the first `n` mappings, evaluating each check. */
  function ScanPrefix(instance: Value, params: seq<PropertyMapping>, n: nat): (r: Eval<MappingScan>)
    requires n <= |params|
    ensures r.Throws? <==>
      exists k :: 0 <= k < n && CheckIfHasAndIsntFunction(instance, params[k].propertyName).Throws?
    ensures r.Returns? ==> r.value == Fold(Verdicts(instance, params), params, n)
  {
    if n == 0 then Returns(MappingScan(Success(), None, None))
    else
      match ScanPrefix(instance, params, n - 1)
      case Throws => Throws
      case Returns(st) =>
        match CheckIfHasAndIsntFunction(instance, params[n - 1].propertyName)
        case Throws => Throws
        case Returns(found) => Returns(Step(st, params[n - 1], found))
  }

  /** `validatePropertyMappings(instance, params)`: an error exactly when
      some mapping names no acceptable property, is a second primary key, or
      is a second expandable mapping. The `forEach` does not stop at an
      offence, so the message describes the LAST offending mapping; a
      mapping rejected by one rule is never recorded as a holder. A throwing
      property search throws out of the whole validation. */
  function ValidatePropertyMappings(instance: Value, params: seq<PropertyMapping>): (r: Eval<ValidationResult>)
    ensures r.Throws? <==>
      exists k :: 0 <= k < |params| && CheckIfHasAndIsntFunction(instance, params[k].propertyName).Throws?
    ensures r.Returns? ==>
      (r.value.error <==> exists j :: 0 <= j < |params| && Offends(Verdicts(instance, params), params, j))
    ensures r.Returns? && r.value.error ==>
      exists j :: 0 <= j < |params| && Offends(Verdicts(instance, params), params, j) &&
        (forall k :: j < k < |params| ==> !Offends(Verdicts(instance, params), params, k)) &&
        r.value.errorMessage.Message? &&
        r.value.errorMessage.kind == OffenceKind(Verdicts(instance, params), params, j) &&
        |r.value.errorMessage.names| > 0 && r.value.errorMessage.names[0] == params[j].propertyName
    ensures r.Returns? ==> r.value == Fold(Verdicts(instance, params), params, |params|).result
    ensures r.Returns? && !r.value.error ==> r.value == Success()
  {
    FoldVerdict(Verdicts(instance, params), params);
    match ScanPrefix(instance, params, |params|)
    case Throws => Throws
    case Returns(st) => Returns(st.result)
  }

  /** The whole loop's result: success when no mapping offends, and
      otherwise the message of the last offender, naming it first. */
  lemma FoldVerdict(ok: seq<bool>, params: seq<PropertyMapping>)
    requires |ok| == |params|
    ensures var res := Fold(ok, params, |params|).result;
      && (res.error <==> exists j :: 0 <= j < |params| && Offends(ok, params, j))
      && (!res.error ==> res == Success())
      && (res.error ==>
            exists j :: 0 <= j < |params| && Offends(ok, params, j) &&
              (forall k :: j < k < |params| ==> !Offends(ok, params, k)) &&
              res.errorMessage.Message? && res.errorMessage.kind == OffenceKind(ok, params, j) &&
              |res.errorMessage.names| > 0 && res.errorMessage.names[0] == params[j].propertyName)
  {
    FoldResultInv(ok, params, |params|);
  }

  /** A second-key or second-expandable error from the validation names
      the offender and then the first mapping that held the flag. */
  lemma SecondNameIsHolder(instance: Value, params: seq<PropertyMapping>)
    ensures var r := ValidatePropertyMappings(instance, params);
      r.Returns? && r.value.error && r.value.errorMessage.Message? &&
      r.value.errorMessage.kind == TwoOrMoreParamsWithPrimaryKeyAssigned ==>
        exists h :: 0 <= h < |params| && FirstKey(Verdicts(instance, params), params, h) &&
          |r.value.errorMessage.names| == 2 && r.value.errorMessage.names[1] == params[h].propertyName
    ensures var r := ValidatePropertyMappings(instance, params);
      r.Returns? && r.value.error && r.value.errorMessage.Message? &&
      r.value.errorMessage.kind == TwoOrMoreParamsWithExpandAssigned ==>
        exists h :: 0 <= h < |params| && FirstExpand(Verdicts(instance, params), params, h) &&
          |r.value.errorMessage.names| == 2 && r.value.errorMessage.names[1] == params[h].propertyName
  {
    DuplicateKeyNamesHolder(Verdicts(instance, params), params);
    DuplicateExpandNamesHolder(Verdicts(instance, params), params);
  }

  /** Mappings that pass validation name acceptable properties and carry at
      most one primary key and at most one expandable-content flag. */
  lemma CleanMappingsAreWellFormed(ok: seq<bool>, params: seq<PropertyMapping>)
    requires |ok| == |params|
    requires forall j :: 0 <= j < |params| ==> !Offends(ok, params, j)
    ensures forall j :: 0 <= j < |params| ==> ok[j]
    ensures AtMostOnePrimaryKey(params)
    ensures AtMostOneExpandable(params)
  {
    forall j | 0 <= j < |params| ensures ok[j] {
      assert !Offends(ok, params, j);
    }
    forall i, j | 0 <= i < j < |params| && params[i].isPrimaryKey
      ensures !params[j].isPrimaryKey
    {
      assert !Offends(ok, params, i) && !Offends(ok, params, j);
      if params[j].isPrimaryKey {
        assert KeyFlagged(ok, params, i);
        assert KeyDuplicate(ok, params, j);
      }
    }
    forall i, j | 0 <= i < j < |params| && params[i].isExpandableContent
      ensures !params[j].isExpandableContent
    {
      assert !Offends(ok, params, i) && !Offends(ok, params, j);
      if params[j].isExpandableContent {
        assert ExpandFlagged(ok, params, i);
        assert ExpandDuplicate(ok, params, j);
      }
    }
  }

  /** Two mappings whose names the instance lacks: the message names the
      second, because the scan does not stop at the first. */
  lemma LastOffenderIsReported()
    ensures ValidatePropertyMappings(Obj([], []), [NewMapping("a"), NewMapping("b")])
         == Returns(Failure(ParamNameIsntValidPropertyForClazz, ["b"]))
  {
    var ps := [NewMapping("a"), NewMapping("b")];
    assert !HasProperty(Obj([], []), "a") && !HasProperty(Obj([], []), "b");
    assert ScanPrefix(Obj([], []), ps, 1) == Returns(Step(MappingScan(Success(), None, None), ps[0], false));
  }

  // ------------------------------------------------------- expand and click

  /** `checkExpansionAndClickOptions`: with neither feature on, success;
      otherwise an empty key property is the first error, an expansion with
      neither a template nor an expandable property the second, and an
      expandable property the instance does not have (including the empty
      name, also in click-only mode) the third. `hasTemplate` is the
      truthiness of the projected expanded-content template. */
  function CheckExpansionAndClickOptions(instance: Value, useExpansion: bool, useClick: bool,
                                         keyProperty: string, hasTemplate: bool,
                                         expandableProperty: string): (r: Eval<ValidationResult>)
    ensures !useExpansion && !useClick ==> r == Returns(Success())
    ensures (useExpansion || useClick) && keyProperty == "" ==>
      r == Returns(Failure(UseExpandOrClickButNoKeyProperty))
    ensures (useExpansion || useClick) && keyProperty != "" && useExpansion && !hasTemplate && expandableProperty == "" ==>
      r == Returns(Failure(UseExpandButNoPropertyOrContent))
    ensures (instance.Obj? || instance.Arr?) && r.Returns? ==>
      (r.value.error <==>
        (useExpansion || useClick) &&
        (keyProperty == "" || (useExpansion && !hasTemplate && expandableProperty == "") ||
         !FoundNonFunction(instance, expandableProperty)))
    ensures (useExpansion || useClick) && keyProperty != "" && !(useExpansion && !hasTemplate && expandableProperty == "") ==>
      r.Returns? && r.value.error ==> r.value == Failure(InvalidExpandableProperty)
    ensures (instance.Obj? || instance.Arr?) && NullFree(instance) ==> r.Returns?
    ensures r.Returns? && !r.value.error ==> r.value == Success()
  {
    if useExpansion || useClick then
      if keyProperty == "" then Returns(Failure(UseExpandOrClickButNoKeyProperty))
      else if useExpansion && !hasTemplate && expandableProperty == "" then
        Returns(Failure(UseExpandButNoPropertyOrContent))
      else
        match CheckIfHasAndIsntFunction(instance, expandableProperty)
        case Throws => Throws
        case Returns(false) => Returns(Failure(InvalidExpandableProperty))
        case Returns(true) => Returns(Success())
    else Returns(Success())
  }
}

=== FILE: validation_result.dfy ===
/** The immutable (error, message) pair every validation returns. */
module ValidationResults {

  /** Which of the library's error messages a failure carries; the prose of
      each message is not behaviour and is not modelled. */
  datatype ErrorKind =
    | NoClass
    | ParamNameIsntValidPropertyForClazz
    | TwoOrMoreParamsWithPrimaryKeyAssigned
    | TwoOrMoreParamsWithExpandAssigned
    | ObjIsNotInstanceOfClazz
    | DataFromSourceIsntObject
    | MultipleElementsWithSameKey
    | UseExpandOrClickButNoKeyProperty
    | UseExpandButNoPropertyOrContent
    | InvalidExpandableProperty

  /** An error message: a kind and the property names spliced into its text
      (none for most kinds). `NoMessage` is the empty string. */
  datatype ErrorMessage = NoMessage | Message(kind: ErrorKind, names: seq<string>)

  /** Both fields are read-only in the source: a value never changes. */
  datatype ValidationResult = ValidationResult(error: bool, errorMessage: ErrorMessage)

  /** `new ValidationResult(error, errorMessage)` with the source's defaults. */
  function NewResult(error: bool := false, errorMessage: ErrorMessage := NoMessage): (r: ValidationResult)
    ensures r.error == error && r.errorMessage == errorMessage
  {
    ValidationResult(error, errorMessage)
  }

  /** The default result: success with an empty message. */
  function Success(): (r: ValidationResult)
    ensures !r.error && r.errorMessage == NoMessage
  {
    NewResult()
  }

  function Failure(kind: ErrorKind, names: seq<string> := []): (r: ValidationResult)
    ensures r.error && r.errorMessage == Message(kind, names)
  {
    NewResult(true, Message(kind, names))
  }

  /** The kind of a failed result's message, if it has one. */
  predicate FailsWith(r: ValidationResult, kind: ErrorKind) {
    r.error && r.errorMessage.Message? && r.errorMessage.kind == kind
  }
}
